=== FILE: README.md ===
# School attendance upload and dashboard, modelled in Dafny

This project models the core of a Django application in which a school uploads a CSV
file of students and attendance marks and then views a dashboard for its data. Two
views are modelled, together with the three entities they rely on.

- **`subir_archivo`** walks the rows of the uploaded file in order. For each row it
  finds or creates the student by the tuple (nombre, apellidos, fecha_nacimiento,
  colegio). It then inserts or overwrites the attendance mark for (student,
  fecha_asistencia). The mark is present exactly when the stripped, lower-cased
  `estado_asistencia` is `"presente"`. The view counts every row it processes in
  `registros_creados`. The first row that raises ends the loop.
- **`dashboard_colegio`** computes, for one school:
  - the genero and grado distributions, grouped, counted and sorted by label;
  - the students' calendar ages, binned by `pd.cut` into four half-open intervals;
  - a 12-entry vector of absences per month of the current year.
- **`Colegio`, `Estudiante` and `Asistencia`** are stored with the constraints the
  database enforces:
  - `codigo_dane` is unique;
  - the foreign keys must point at existing rows;
  - (estudiante, fecha) is unique.

  Dates must also be real dates. Django's `DateField` conversion checks this and raises
  `ValidationError` before the row reaches the database.

Modules, one per file:

- `calendar.dfy` (`Calendar`): dates, their validity, and calendar age.
- `text.dfy` (`Text`): Python's `strip()` and `lower()`, and the presence flag.
- `collections.dfy` (`Collections`): the outcome of an ORM `get()` (none, one, many), keyed uniqueness, filtering and sums.
- `collation.dfy` (`Collation`): the string order used for `order_by`.
- `grouping.dfy` (`Grouping`): `values().annotate(Count).order_by()` as a sorted list of buckets.
- `models.dfy` (`Models`): the entities, the database, and inserts that enforce the constraints.
- `ingestion.dfy` (`Ingestion`): one row, the loop over a file, and the invariants and idempotence of the loop.
- `dashboard.dfy` (`Dashboard`): the four aggregations and the summary.
- `scenario.dfy` (`Scenario`): a two-row upload and the dashboard that follows from it, worked out in full.

Primary keys are positions in the tables. They are handed out in insertion order, and
nothing in this core deletes a row. Effects are values: ingestion is a fold that maps a
database to a database. `date.today()` is a parameter. The view calls it twice, once for
the ages (gestion/views.py:165) and once for the year of the absence trend
(gestion/views.py:183). The model uses one `today` for both, so it does not cover a
dashboard request that runs across midnight on 31 December.

Errors the ORM raises are modelled as values:

- `ValidationError`: a date that is not a date.
- `IntegrityError`: a foreign key or unique constraint violated.
- `MultipleObjectsReturned`: a `get()` that matches two rows.

A failing row ends the fold. The state it reports keeps everything done before the
failure, including a student created by the failing row before its attendance date
was rejected.

In these points the model follows what the code does, not what its labels and messages suggest:

- Row errors are not collected. The first exception ends the loop, and the whole file
  is reported as a single error message (gestion/views.py:129-130).
- `Estudiante` has no uniqueness constraint in storage (gestion/models.py:66-68).
  Only the lookup in `get_or_create` keeps identity tuples unique. That property is
  proved as an invariant of ingestion (`Ingestion.IngestInvariants`).
- The age bins are the half-open intervals [0,8), [8,11), [11,14) and [14,18), although
  the labels read 0-8, 9-11, 12-14 and 15-18. An 8-year-old is counted under
  "9-11 años", and an 18-year-old is counted in no bin (`Dashboard.AgeBinsIff`).
- The age chart is empty only when the school has no students. If all students are
  outside [0,18), the four labels are still emitted, each with count 0.

## Model

| member | source | states |
|---|---|---|
| Calendar.DaysInMonth | gestion/models.py:62 | month lengths are 28 to 31 days; February is the only month under 30 days and has 29 exactly in leap years; April, June, September and November have 30 and the other months 31 |
| Calendar.Age | gestion/views.py:167 | the age is the number of the last anniversary reached: that anniversary is on or before today and the next one is after today |
| Calendar.AgeCountsAnniversaries | gestion/views.py:167 | the n-th anniversary has been reached exactly when n is at most the age |
| Calendar.AgeMonotonic | gestion/views.py:164-168 | a later `today` never gives a smaller age |
| Text.Strip | gestion/views.py:119 | `strip()` is no longer than its input, is empty exactly when the input is all whitespace, and otherwise starts and ends with a non-space character |
| Text.StripUnique | gestion/views.py:119 | cutting only whitespace from both ends, until a non-space character shows on each side, gives exactly `strip()` |
| Text.LowerIsPresente | gestion/views.py:119 | a text lower-cases to "presente" exactly when it spells presente, each letter in either case |
| Text.PresenceIff | gestion/views.py:119 | the flag is true exactly when the status is "presente" in any case, padded only by whitespace; every other text is false and none is an error |
| Collections.FindSpec | gestion/views.py:110-126 | the lookup finds nothing exactly when no row has the key, finds one row exactly when that row is the only one with the key, and reports many only when two rows share the key |
| Collections.FindInUnique | gestion/models.py:86 | under a uniqueness constraint a lookup never finds two rows |
| Models.InsertColegio | gestion/models.py:9-11 | a refused school raises IntegrityError; a stored school is appended and every other table is left as it was |
| Models.InsertColegioSpec | gestion/models.py:9-11 | a school is stored exactly when no stored school has its `codigo_dane`, and storing it keeps the constraints |
| Models.InsertEstudiante | gestion/models.py:57-64 | a student is stored exactly when its birth date is valid and its school exists, and is then appended; genero and grado are never checked; a bad date raises ValidationError and a missing school IntegrityError |
| Models.InsertEstudianteConsistent | gestion/models.py:57-64 | storing a student keeps the constraints |
| Models.InsertAsistencia | gestion/models.py:77-86 | a refused mark raises ValidationError exactly when its date is invalid, otherwise IntegrityError; a stored mark is appended and every other table is left as it was |
| Models.InsertAsistenciaSpec | gestion/models.py:77-86 | a mark is stored exactly when its date is valid, its student exists, and no mark has the same (estudiante, fecha); storing it keeps the constraints |
| Models.NewAsistencia | gestion/models.py:81 | a mark built without an estado is present; only an explicit false makes it absent |
| Ingestion.GetOrCreateStudent | gestion/views.py:110-116 | on success the returned position holds a student with the row's identity tuple, and schools and marks are untouched |
| Ingestion.StudentCreateIfAbsent | gestion/views.py:110-116 | a row matching a stored student reuses it and leaves the students unchanged, so genero and grado are not overwritten; a row matching nobody appends exactly one student carrying the row's genero and grado, exactly when its birth date is valid and its school exists |
| Ingestion.StudentStepInvariants | gestion/views.py:110-116 | the student step keeps the database constraints and at most one student per identity tuple |
| Ingestion.AttendanceUpsert | gestion/views.py:122-126 | for an existing student and a valid date the upsert succeeds and leaves exactly one mark for the pair, carrying the new estado; every other key is found where it was, and every other mark is untouched |
| Ingestion.UpsertOverwrites | gestion/views.py:122-126 | when the pair already has a mark, the upsert sets its estado in place and every key is found where it was |
| Ingestion.UpsertInserts | gestion/views.py:122-126 | when the pair has no mark, the upsert appends one with the new estado and every other key is found where it was |
| Ingestion.RowInvariants | gestion/views.py:108-126 | a row, successful or not, keeps the constraints and the absence of duplicate students |
| Ingestion.RowFailsOnlyOnInvalidDates | gestion/views.py:108-126 | for an existing school a row fails exactly when one of its dates is invalid, and then with a validation error |
| Ingestion.RowEffect | gestion/views.py:110-126 | after a successful row the student is reused or added, the row's (student, date) pair has exactly one mark carrying the row's flag, and every other pair keeps its estado |
| Ingestion.RowStudents | gestion/views.py:110-116 | a successful row keeps the schools, reuses the student it matches, or appends the one it builds |
| Ingestion.RowStudentFound | gestion/views.py:110-126 | after a successful row its student is found once, at the position the student step returned, and its mark holds the row's flag |
| Ingestion.RowOthers | gestion/views.py:122-126 | a successful row leaves the estado of every other (student, date) pair alone |
| Ingestion.RowKeepsSlots | gestion/views.py:110-126 | a mark that already exists keeps its position while another row is ingested |
| Ingestion.Ingest | gestion/views.py:107-127 | when the loop completes the count equals the number of rows, whether each row created or updated; when it stops, the number of completed rows is less than the number of rows |
| Ingestion.Upload | gestion/views.py:107-127 | the loop with its counter computes the fold, so a completed upload reports one count per row, whether the row created or updated |
| Ingestion.IngestAbortedPrefix | gestion/views.py:102-130 | once a prefix of the rows has failed, the remaining rows change nothing |
| Ingestion.IngestProcessedPrefix | gestion/views.py:108-127 | if the whole file is processed, so is every prefix of it |
| Ingestion.IngestInvariants | gestion/views.py:108-126 | after the loop, whether it completed or stopped, the constraints hold and there is at most one student per identity tuple |
| Ingestion.IngestStopsAtFirstInvalidRow | gestion/views.py:102-130 | for an existing school the loop completes exactly when every date is valid; otherwise it stops with a validation error at the first row with an invalid date |
| Ingestion.IngestKeepsSchools | gestion/views.py:108-126 | ingestion never changes the schools |
| Ingestion.IngestConcat | gestion/views.py:108 | the loop over a + b is the loop over a followed by the loop over b |
| Ingestion.LastFlagIsLastRow | gestion/views.py:122-126 | the flag recorded for a mark is that of the last row addressing it, and there is none when no row addresses it |
| Ingestion.ReplayOverwrites | gestion/views.py:108-126 | replaying rows whose students and marks all exist sets each addressed mark to the flag of the last row addressing it and changes nothing else |
| Ingestion.IngestSettles | gestion/views.py:108-126 | after a completed upload every row's mark exists and holds the flag of the last row addressing it |
| Ingestion.SettleStep | gestion/views.py:108-126 | one more successful row keeps the earlier rows' marks in place and keeps the last row winning |
| Ingestion.SettledStep | gestion/views.py:108-126 | one more successful row puts its own mark in place and keeps every earlier row's mark where it was |
| Ingestion.WinsStep | gestion/views.py:122-126 | one more successful row keeps the last row winning for every mark |
| Ingestion.AttendanceStable | gestion/views.py:122-126 | a successful row changes no mark other than its own |
| Ingestion.IngestLastRowWins | gestion/views.py:122-126 | after a completed upload, the mark of a row that is the last one addressing it carries that row's flag |
| Ingestion.ReplayStep | gestion/views.py:122-126 | replaying a row whose mark exists only sets that mark's estado to the row's flag |
| Ingestion.OverwriteIdentity | gestion/views.py:122-126 | when the last row already wins everywhere, overwriting changes nothing |
| Ingestion.IngestIdempotent | gestion/views.py:108-126 | after an upload that completed, uploading the same rows a second time changes neither students nor marks, and reports the same count |
| Ingestion.IngestIdempotentAlways | gestion/views.py:102-130 | uploading the same rows a second time leaves the state the first upload left and gives the same outcome, also when the first upload stopped at a row and kept what the rows before it, and that row's new student, had committed: the second upload stops at the same row with the same error |
| Ingestion.StoppedUploadRepeats | gestion/views.py:108-130 | an upload whose last row raised, all earlier rows having gone through, stops at that row again when repeated on the state it left |
| Ingestion.FailedRowKeepsSlots | gestion/views.py:110-126 | a row that raises leaves schools and marks alone and either leaves the students as they were or appends exactly the student it builds, so every mark already in place is found where it was |
| Ingestion.FailedRowRepeats | gestion/views.py:110-126 | a row that raised raises again with the same error, and changes nothing, when replayed on the state it left |
| Ingestion.IngestTwice | gestion/views.py:108-126 | after an upload that completed, a file holding its rows twice gives the state of holding them once, with every row counted |
| Collation.LessIff | gestion/views.py:154 | the label order is the textbook lexicographic order: a proper prefix comes first, otherwise the first differing character decides |
| Collation.LessIrreflexive | gestion/views.py:154 | no label sorts before itself |
| Collation.LessTransitive | gestion/views.py:154 | the label order is transitive |
| Collation.LessTotal | gestion/views.py:154 | any two different labels are ordered one way or the other |
| Collation.LessAsymmetric | gestion/views.py:154 | two labels are never each before the other |
| Grouping.Add | gestion/views.py:154 | counting one more value keeps the labels ascending and the counts positive, and raises the count of that value, and only that count, by one |
| Grouping.Histogram | gestion/views.py:154-161 | the grouped counts have strictly ascending labels and positive counts; each label's count is its number of occurrences; the counts sum to the number of values |
| Grouping.HistogramLabels | gestion/views.py:154-156 | the labels are exactly the values that occur |
| Grouping.CountOfBucket | gestion/views.py:154-161 | in an ascending list the count reported for a bucket's label is that bucket's count |
| Grouping.HistogramUnique | gestion/views.py:154-161 | any ascending list of positive counts with the same counts as the values is the grouping itself |
| Dashboard.SchoolStudents | gestion/views.py:149 | the school's students are exactly the stored students whose foreign key is that school, with their multiplicities |
| Dashboard.Cut | gestion/views.py:175 | a value put in bin i lies in [edges[i], edges[i+1]); a value put in no bin lies in none of the intervals |
| Dashboard.CutIff | gestion/views.py:175 | with increasing edges, a value is in bin i exactly when it lies in [edges[i], edges[i+1]) |
| Dashboard.AgeBinsIff | gestion/views.py:171-175 | ages go to "0-8 años", "9-11 años", "12-14 años" and "15-18 años" exactly when they lie in [0,8), [8,11), [11,14) and [14,18); every other age goes to no bin |
| Dashboard.BinCountsFilter | gestion/views.py:175 | each bin counts exactly the ages that fall in it |
| Dashboard.BinCountsTotal | gestion/views.py:175-177 | the four counts sum to the number of ages in [0,18) |
| Dashboard.AgeDistribution | gestion/views.py:171-180 | with no students the chart is empty; otherwise it has the four labels in order, each with the number of ages in its bin, zero included |
| Dashboard.AgeDistributionTotal | gestion/views.py:173-177 | the age counts sum to the number of students aged 0 to 17 |
| Dashboard.Absences | gestion/views.py:186-190 | the counted marks are exactly the stored absences, in the given year, of the school's students |
| Dashboard.MonthTotals | gestion/views.py:186-197 | the month dictionary only has keys for months with at least one absence |
| Dashboard.MonthTotalsCount | gestion/views.py:186-197 | looking up a month in the dictionary, defaulting to 0, gives the number of absences dated in that month |
| Dashboard.Trend | gestion/views.py:197-202 | the trend has exactly 12 entries |
| Dashboard.TrendCounts | gestion/views.py:186-202 | entry m of the trend counts the absences dated in month m+1, 0 when there are none |
| Dashboard.TrendStep | gestion/views.py:186-202 | one more absence raises the entry of its month by one and leaves the other eleven alone |
| Dashboard.TrendTotal | gestion/views.py:197-202 | when every mark is dated in a real month, the 12 entries sum to the number of marks |
| Dashboard.Summarize | gestion/views.py:149-202 | the total is the school's student count; genero and grado are ascending positive groupings whose counts sum to it; the age chart is empty exactly when there are no students and otherwise has the four labels in order, each with the number of ages in its bin, summing to the ages in [0,18); the trend has 12 entries, each counting the absences of its month |
| Dashboard.TrendCoversAbsences | gestion/views.py:186-202 | in a consistent database the 12 monthly entries account for every absence of the school in the year |
| Scenario.PresenteIsPresent | gestion/views.py:119 | the status "Presente" is a presence |
| Scenario.AusenteIsAbsent | gestion/views.py:119 | the status "Ausente" is an absence |
| Scenario.FirstRowCreates | gestion/views.py:110-126 | the first row for a new student creates the student and the mark |
| Scenario.SecondRowReuses | gestion/views.py:110-126 | a second row for the same student on another day reuses the student and adds a mark |
| Scenario.UploadTwoDays | gestion/views.py:107-127 | the two-row file yields one student and two marks, and a count of 2 |
| Scenario.GeneroAfterUpload | gestion/views.py:154-156 | after that upload the genero grouping is F once |
| Scenario.EdadAfterUpload | gestion/views.py:164-180 | a student born on 1 March 2014 is ten on 10 October 2024 and is counted under "9-11 años" |
| Scenario.DesercionAfterUpload | gestion/views.py:186-202 | the one absence on 2 May shows as 1 in the fifth entry and 0 elsewhere |
| Scenario.DashboardAfterUpload | gestion/views.py:149-202 | the dashboard after that upload shows one student, gender F once, one student in "9-11 años", and one absence in May |

## Left out

- CSV decoding and `pd.read_csv` type inference (gestion/views.py:104-105): rows are already-typed records, and dates are (year, month, day) triples. A cell that does not parse as a date is represented by an invalid triple. `str()` of a missing status becomes a text that is not "presente".
- The transaction (gestion/views.py:83) and what happens to the effects of a file that fails part-way. The model reports the state at the failure point and does not model rollback or savepoints.
- Registration, login, logout and the authentication backend (gestion/views.py:17-78, gestion/backends.py): these are thin wrappers over Django's authentication.
- Permission checks, redirects, the `.csv` file-name check, flash messages and rendering (gestion/views.py:85-100, 128-133, 141-147, 204-220). The school is a parameter; a school position that does not exist makes the first student insert fail with IntegrityError instead of a 404.
- Spanish month names (gestion/views.py:199-201): the trend is indexed by month number.
- gestion/forms.py, gestion/admin.py and gestion/urls.py: these are framework declarations only.
- The `Usuario` model and the `usuario` link of `Colegio` (gestion/models.py:15-51): authentication only.
- `max_length=255` on `nombre`, `apellidos`, `genero` and `grado` (gestion/models.py:60-64): text is unbounded in the model. `get_or_create` stores these values unchecked (gestion/views.py:110-116). On a database that enforces VARCHAR lengths, a longer value raises a DataError, which would stop the loop like any other row error. That error path is not modelled.
- The 32-bit range of `IntegerField` (`num_estudiantes`, `num_docentes`): nothing in the core reads or writes these columns.
- Cascade deletes: nothing in the core deletes a row.
- The database collation. Labels are ordered by code point (`Collation`). Text comparisons are exact and case-sensitive, both in the identity lookup of `get_or_create` (gestion/views.py:110-116) and in the grouping by genero and grado (gestion/views.py:154, 159). Under a case-insensitive collation "ana" would reuse the student "Ana" and would fall into the same group. The model does not cover that.
- Text.Lower: lower-cases only A to Z, not the full Unicode mapping. It is used only to compare with the all-ASCII "presente", where the outcome is the same, because no other character lower-cases to one of its letters.
- Dashboard.MonthTotals: groups marks by month and assumes the ORM groups the query by the truncated month alone, not by the individual date (gestion/views.py:186-194).

=== FILE: calendar.dfy ===
/** Calendar dates as Django's DateField stores them, and the calendar-age rule the
    dashboard applies to birth dates. */
module Calendar {

  /** A date as (year, month, day). Whether it is a real calendar date is ValidDate. */
  datatype Date = Date(year: int, month: int, day: int)

  /** Python's datetime.MINYEAR and datetime.MAXYEAR. */
  const MinYear := 1
  const MaxYear := 9999

  /** Gregorian leap-year rule. */
  predicate IsLeapYear(y: int) {
    y % 4 == 0 && (y % 100 != 0 || y % 400 == 0)
  }

  function DaysInMonth(y: int, m: int): (n: int)
    requires 1 <= m <= 12
    ensures 28 <= n <= 31
    ensures m == 2 ==> (n == 29 <==> IsLeapYear(y))
    ensures m == 2 <==> n < 30
    ensures (m == 4 || m == 6 || m == 9 || m == 11) <==> n == 30
  {
    if m == 2 then (if IsLeapYear(y) then 29 else 28)
    else if m == 4 || m == 6 || m == 9 || m == 11 then 30
    else 31
  }

  /** The dates a DateField accepts; anything else raises a validation error. */
  predicate ValidDate(d: Date) {
    && MinYear <= d.year <= MaxYear
    && 1 <= d.month <= 12
    && 1 <= d.day <= DaysInMonth(d.year, d.month)
  }

  /** (a.month, a.day) < (b.month, b.day), compared as Python compares tuples. */
  predicate MonthDayBefore(a: Date, b: Date) {
    a.month < b.month || (a.month == b.month && a.day < b.day)
  }

  /** a is not later than b in (year, month, day) order. */
  predicate OnOrBefore(a: Date, b: Date) {
    || a.year < b.year
    || (a.year == b.year && a.month < b.month)
    || (a.year == b.year && a.month == b.month && a.day <= b.day)
  }

  /** The n-th anniversary of a birth date, with month and day kept as they are
      (so a 29 February birthday stays on 29 February in every year). */
  function Anniversary(birth: Date, n: int): Date {
    Date(birth.year + n, birth.month, birth.day)
  }

  /** Calendar age: year difference, one less while this year's birthday is still ahead.
      It is exactly the number of the last anniversary reached by `today`. */
  function Age(birth: Date, today: Date): (age: int)
    ensures OnOrBefore(Anniversary(birth, age), today)
    ensures !OnOrBefore(Anniversary(birth, age + 1), today)
  {
    today.year - birth.year - (if MonthDayBefore(today, birth) then 1 else 0)
  }

  /** The n-th anniversary has been reached by `today` exactly when n is at most the age. */
  lemma AgeCountsAnniversaries(birth: Date, today: Date, n: int)
    ensures OnOrBefore(Anniversary(birth, n), today) <==> n <= Age(birth, today)
  {
    var age := Age(birth, today);
    if n <= age {
      assert Anniversary(birth, n).year <= Anniversary(birth, age).year;
    } else {
      assert Anniversary(birth, n).year >= Anniversary(birth, age + 1).year;
    }
  }

  /** Ages never go down as `today` moves forward. */
  lemma AgeMonotonic(birth: Date, today: Date, later: Date)
    requires OnOrBefore(today, later)
    ensures Age(birth, today) <= Age(birth, later)
  {
    var a := Age(birth, today);
    assert OnOrBefore(Anniversary(birth, a), today);
    assert OnOrBefore(Anniversary(birth, a), later);
    AgeCountsAnniversaries(birth, later, a);
  }
}

=== FILE: collation.dfy ===
/** The order `order_by` sorts text labels in, taken as plain code-point
    lexicographic order (the database's collation is not part of this model). */
module Collation {

  /** a sorts strictly before b: at the first position where they differ a has the
      smaller character, or a is a proper prefix of b. */
  predicate Less(a: string, b: string)
    decreases |a|
  {
    if |b| == 0 then false
    else if |a| == 0 then true
    else if a[0] != b[0] then a[0] < b[0]
    else Less(a[1..], b[1..])
  }

  /** a is b with something appended. */
  predicate ProperPrefix(a: string, b: string) {
    |a| < |b| && a == b[..|a|]
  }

  /** a and b agree before position i, where a has the smaller character. */
  predicate FirstDifference(a: string, b: string, i: int) {
    0 <= i < |a| && i < |b| && a[..i] == b[..i] && a[i] < b[i]
  }

  /** Less agrees with the textbook definition of lexicographic order. */
  lemma {:induction false} LessIff(a: string, b: string)
    ensures Less(a, b) <==> ProperPrefix(a, b) || exists i :: FirstDifference(a, b, i)
    decreases |a|
  {
    if |a| > 0 && |b| > 0 {
      if a[0] == b[0] {
        LessIff(a[1..], b[1..]);
        DropCommonHead(a, b);
      } else {
        assert a[..0] == b[..0];
        assert !ProperPrefix(a, b);
        assert a[0] < b[0] ==> FirstDifference(a, b, 0);
      }
    } else if |a| == 0 && |b| > 0 {
      assert ProperPrefix(a, b);
    }
  }

  /** Cutting an equal first character off both strings keeps both witnesses. */
  lemma DropCommonHead(a: string, b: string)
    requires |a| > 0 && |b| > 0 && a[0] == b[0]
    ensures ProperPrefix(a, b) <==> ProperPrefix(a[1..], b[1..])
    ensures (exists i :: FirstDifference(a, b, i)) <==> exists i :: FirstDifference(a[1..], b[1..], i)
  {
    if ProperPrefix(a, b) {
      assert a[1..] == b[1..][..|a| - 1];
    }
    if ProperPrefix(a[1..], b[1..]) {
      assert a == [a[0]] + a[1..];
      assert b[..|a|] == [b[0]] + b[1..][..|a| - 1];
    }
    if exists i :: FirstDifference(a, b, i) {
      var i :| FirstDifference(a, b, i);
      assert i > 0;
      assert a[1..][..i - 1] == a[..i][1..] && b[1..][..i - 1] == b[..i][1..];
      assert FirstDifference(a[1..], b[1..], i - 1);
    }
    if exists i :: FirstDifference(a[1..], b[1..], i) {
      var i :| FirstDifference(a[1..], b[1..], i);
      assert a[..i + 1] == [a[0]] + a[1..][..i];
      assert b[..i + 1] == [b[0]] + b[1..][..i];
      assert FirstDifference(a, b, i + 1);
    }
  }

  lemma {:induction false} LessIrreflexive(a: string)
    ensures !Less(a, a)
    decreases |a|
  {
    if |a| > 0 {
      LessIrreflexive(a[1..]);
    }
  }

  lemma {:induction false} LessTransitive(a: string, b: string, c: string)
    requires Less(a, b) && Less(b, c)
    ensures Less(a, c)
    decreases |a|
  {
    if |a| > 0 && a[0] == b[0] && b[0] == c[0] {
      LessTransitive(a[1..], b[1..], c[1..]);
    }
  }

  /** Any two different strings are ordered one way or the other. */
  lemma {:induction false} LessTotal(a: string, b: string)
    requires a != b
    ensures Less(a, b) || Less(b, a)
    decreases |a|
  {
    if |a| > 0 && |b| > 0 && a[0] == b[0] {
      assert a == [a[0]] + a[1..] && b == [b[0]] + b[1..];
      LessTotal(a[1..], b[1..]);
    }
  }

  lemma LessAsymmetric(a: string, b: string)
    requires Less(a, b)
    ensures !Less(b, a)
  {
    if Less(b, a) {
      LessTransitive(a, b, a);
      LessIrreflexive(a);
    }
  }
}

=== FILE: collections.dfy ===
/** Generic sequence helpers shared by the storage model and the dashboard: the
    outcome of an ORM `get()`, keyed uniqueness, filtering and summing. */
module Collections {

  datatype Option<T> = None | Some(value: T)

  /** What `QuerySet.get()` finds: nothing, exactly one row (at a position), or more
      than one row (Django raises MultipleObjectsReturned). */
  datatype Found = Absent | One(index: nat) | Many

  /** No two elements of xs share a key. */
  predicate Unique<T, K(==)>(xs: seq<T>, key: T -> K) {
    forall i, j :: 0 <= i < j < |xs| ==> key(xs[i]) != key(xs[j])
  }

  /** Looks up the elements of xs whose key is k; FindSpec states what it finds. */
  function Find<T, K(==)>(xs: seq<T>, key: T -> K, k: K): (r: Found)
    ensures r.One? ==> r.index < |xs|
    decreases |xs|
  {
    if |xs| == 0 then Absent
    else
      var last := |xs| - 1;
      var rest := Find(xs[..last], key, k);
      if key(xs[last]) != k then rest
      else match rest
        case Absent => One(last)
        case One(_) => Many
        case Many => Many
  }

  /** Find reports Absent when no element has key k, One(i) when xs[i] is the only one,
      and Many when at least two do. */
  lemma {:induction false} FindSpec<T, K>(xs: seq<T>, key: T -> K, k: K)
    ensures Find(xs, key, k).Absent? <==> forall i :: 0 <= i < |xs| ==> key(xs[i]) != k
    ensures Find(xs, key, k).One? ==> key(xs[Find(xs, key, k).index]) == k
    ensures Find(xs, key, k).One? ==>
      forall j :: 0 <= j < |xs| && j != Find(xs, key, k).index ==> key(xs[j]) != k
    ensures Find(xs, key, k).Many? ==>
      exists i, j :: 0 <= i < j < |xs| && key(xs[i]) == k && key(xs[j]) == k
    decreases |xs|
  {
    if |xs| > 0 {
      var last := |xs| - 1;
      FindSpec(xs[..last], key, k);
      assert forall i :: 0 <= i < last ==> xs[..last][i] == xs[i];
      match Find(xs[..last], key, k)
      case One(i) =>
        if key(xs[last]) == k {
          assert key(xs[i]) == k;
        }
      case _ =>
    }
  }

  /** When keys are unique, `get()` never finds more than one element. */
  lemma FindInUnique<T, K>(xs: seq<T>, key: T -> K, k: K)
    requires Unique(xs, key)
    ensures !Find(xs, key, k).Many?
  {
    FindSpec(xs, key, k);
  }

  /** Only the keys of the elements matter to Find. */
  lemma {:induction false} FindSameKeys<T, K>(xs: seq<T>, ys: seq<T>, key: T -> K, k: K)
    requires |xs| == |ys|
    requires forall i :: 0 <= i < |xs| ==> key(xs[i]) == key(ys[i])
    ensures Find(xs, key, k) == Find(ys, key, k)
    decreases |xs|
  {
    if |xs| > 0 {
      FindSameKeys(xs[..|xs| - 1], ys[..|ys| - 1], key, k);
    }
  }

  /** Appending an element with a different key does not change what Find sees. */
  lemma FindAppendOther<T, K>(xs: seq<T>, x: T, key: T -> K, k: K)
    requires key(x) != k
    ensures Find(xs + [x], key, k) == Find(xs, key, k)
  {
    assert (xs + [x])[..|xs|] == xs;
  }

  /** Appending the first element with key k makes it the one Find returns. */
  lemma FindAppendNew<T, K>(xs: seq<T>, x: T, key: T -> K)
    requires Find(xs, key, key(x)).Absent?
    ensures Find(xs + [x], key, key(x)) == One(|xs|)
  {
    assert (xs + [x])[..|xs|] == xs;
  }

  /** Appending an element whose key is new keeps the keys unique. */
  lemma UniqueAppend<T, K>(xs: seq<T>, x: T, key: T -> K)
    requires Find(xs, key, key(x)).Absent?
    ensures Unique(xs, key) ==> Unique(xs + [x], key)
  {
    FindSpec(xs, key, key(x));
  }

  /** The elements of xs satisfying p, in order. */
  function Filter<T(!new)>(xs: seq<T>, p: T -> bool): (r: seq<T>)
    ensures |r| <= |xs|
    ensures forall i :: 0 <= i < |r| ==> p(r[i])
    ensures forall x :: multiset(r)[x] == if p(x) then multiset(xs)[x] else 0
    decreases |xs|
  {
    if |xs| == 0 then []
    else
      var last := |xs| - 1;
      assert xs == xs[..last] + [xs[last]];
      var rest := Filter(xs[..last], p);
      if p(xs[last]) then rest + [xs[last]] else rest
  }

  /** Filtering one more element adds it to the end when it passes, and nothing when
      it does not. */
  lemma FilterSnoc<T(!new)>(xs: seq<T>, p: T -> bool)
    requires |xs| > 0
    ensures |Filter(xs, p)| == |Filter(xs[..|xs| - 1], p)| + if p(xs[|xs| - 1]) then 1 else 0
  {
  }

  function SumNat(xs: seq<nat>): nat
    decreases |xs|
  {
    if |xs| == 0 then 0 else SumNat(xs[..|xs| - 1]) + xs[|xs| - 1]
  }

  /** Raising one entry by one raises the sum by one. */
  lemma {:induction false} SumNatIncrement(xs: seq<nat>, i: nat)
    requires i < |xs|
    ensures SumNat(xs[i := xs[i] + 1]) == SumNat(xs) + 1
    decreases |xs|
  {
    var ys := xs[i := xs[i] + 1];
    var last := |xs| - 1;
    if i == last {
      assert ys[..last] == xs[..last];
    } else {
      assert ys[..last] == xs[..last][i := xs[i] + 1];
      SumNatIncrement(xs[..last], i);
    }
  }

  lemma SumNatZeros(n: nat)
    ensures SumNat(seq(n, _ => 0)) == 0
  {
    if n > 0 {
      assert seq(n, _ => 0)[..n - 1] == seq(n - 1, _ => 0);
      SumNatZeros(n - 1);
    }
  }
}

=== FILE: dashboard.dfy ===
/** The aggregation behind `dashboard_colegio`: for one school, the genero and grado
    distributions, the age distribution over fixed half-open bins, and the count of
    absences per month of the current year. `today` is a parameter. */
module Dashboard {
  import opened Calendar
  import opened Collections
  import opened Models
  import opened Grouping

  /** The students whose foreign key points at school c. */
  function SchoolStudents(db: Db, c: nat): (ss: seq<Estudiante>)
    ensures forall i :: 0 <= i < |ss| ==> ss[i].colegio == c
    ensures forall e :: multiset(ss)[e] == if e.colegio == c then multiset(db.estudiantes)[e] else 0
  {
    Filter(db.estudiantes, (e: Estudiante) => e.colegio == c)
  }

  /* ---------------- genero and grado ---------------- */

  function Generos(ss: seq<Estudiante>): (xs: seq<string>)
    ensures |xs| == |ss| && forall i :: 0 <= i < |ss| ==> xs[i] == ss[i].genero
  {
    seq(|ss|, i requires 0 <= i < |ss| => ss[i].genero)
  }

  function Grados(ss: seq<Estudiante>): (xs: seq<string>)
    ensures |xs| == |ss| && forall i :: 0 <= i < |ss| ==> xs[i] == ss[i].grado
  {
    seq(|ss|, i requires 0 <= i < |ss| => ss[i].grado)
  }

  /* ---------------- ages ---------------- */

  /** Where `pd.cut(..., right=False)` puts a value: in the i-th interval
      [edges[i], edges[i+1]), or in none (pandas gives NaN and value_counts drops it). */
  datatype Bin = NoBin | InBin(index: nat)

  function Cut(edges: seq<int>, x: int): (b: Bin)
    ensures b.InBin? ==> b.index + 1 < |edges| && edges[b.index] <= x < edges[b.index + 1]
    ensures b.NoBin? ==> forall i :: 0 <= i < |edges| - 1 ==> !(edges[i] <= x < edges[i + 1])
    decreases |edges|
  {
    if |edges| < 2 then NoBin
    else
      var n := |edges|;
      if edges[n - 2] <= x < edges[n - 1] then InBin(n - 2)
      else
        var pre := edges[..n - 1];
        assert forall i :: 0 <= i < n - 1 ==> pre[i] == edges[i];
        Cut(pre, x)
  }

  predicate StrictlyIncreasing(edges: seq<int>) {
    forall i, j :: 0 <= i < j < |edges| ==> edges[i] < edges[j]
  }

  /** With increasing edges the intervals do not overlap, so a value is in the i-th bin
      exactly when it lies in [edges[i], edges[i+1]). */
  lemma CutIff(edges: seq<int>, x: int, i: nat)
    requires StrictlyIncreasing(edges) && i + 1 < |edges|
    ensures Cut(edges, x) == InBin(i) <==> edges[i] <= x < edges[i + 1]
  {
    if edges[i] <= x < edges[i + 1] {
      match Cut(edges, x)
      case InBin(j) =>
      case NoBin =>
    }
  }

  const AgeBins: seq<int> := [0, 8, 11, 14, 18]
  const AgeLabels: seq<string> := ["0-8 años", "9-11 años", "12-14 años", "15-18 años"]

  /** The labels promise 0-8, 9-11, 12-14 and 15-18, but the edges with right=False
      give [0,8), [8,11), [11,14) and [14,18): an 8-year-old lands in "9-11 años" and an
      18-year-old in no bin at all. */
  lemma AgeBinsIff(age: int)
    ensures Cut(AgeBins, age) == InBin(0) <==> 0 <= age < 8
    ensures Cut(AgeBins, age) == InBin(1) <==> 8 <= age < 11
    ensures Cut(AgeBins, age) == InBin(2) <==> 11 <= age < 14
    ensures Cut(AgeBins, age) == InBin(3) <==> 14 <= age < 18
    ensures Cut(AgeBins, age) == NoBin <==> age < 0 || 18 <= age
  {
    assert StrictlyIncreasing(AgeBins);
    CutIff(AgeBins, age, 0);
    CutIff(AgeBins, age, 1);
    CutIff(AgeBins, age, 2);
    CutIff(AgeBins, age, 3);
  }

  predicate InAgeRange(age: int) {
    0 <= age < 18
  }

  /** An age lands in one of the four bins exactly when it lies in [0, 18). */
  lemma InAgeRangeIffBinned(age: int)
    ensures Cut(AgeBins, age).InBin? <==> InAgeRange(age)
  {
    if InAgeRange(age) {
      AgeBinsIff(age);
    }
  }

  function Ages(ss: seq<Estudiante>, today: Date): (ages: seq<int>)
    ensures |ages| == |ss| && forall i :: 0 <= i < |ss| ==> ages[i] == Age(ss[i].fechaNacimiento, today)
  {
    seq(|ss|, i requires 0 <= i < |ss| => Age(ss[i].fechaNacimiento, today))
  }

  /** `value_counts()` over the four age bins, in bin order, zero counts included. */
  function BinCounts(ages: seq<int>): (counts: seq<nat>)
    ensures |counts| == |AgeLabels|
    decreases |ages|
  {
    if |ages| == 0 then [0, 0, 0, 0]
    else
      var counts := BinCounts(ages[..|ages| - 1]);
      match Cut(AgeBins, ages[|ages| - 1])
      case InBin(i) => counts[i := counts[i] + 1]
      case NoBin => counts
  }

  predicate InBinOf(i: nat, age: int) {
    Cut(AgeBins, age) == InBin(i)
  }

  /** Each bin counts exactly the ages that fall in it. */
  lemma {:induction false} BinCountsFilter(ages: seq<int>, i: nat)
    requires i < |AgeLabels|
    ensures BinCounts(ages)[i] == |Filter(ages, (a: int) => InBinOf(i, a))|
    decreases |ages|
  {
    if |ages| > 0 {
      BinCountsFilter(ages[..|ages| - 1], i);
    }
  }

  /** The four counts add up to the number of ages in [0, 18). */
  lemma BinCountsTotal(ages: seq<int>)
    ensures SumNat(BinCounts(ages)) == |Filter(ages, InAgeRange)|
  {
    SumOfFour(BinCounts(ages));
    FourCountsCoverRange(ages);
  }

  /** Every age in [0, 18) is counted in exactly one of the four bins. */
  lemma {:induction false} FourCountsCoverRange(ages: seq<int>)
    ensures var c := BinCounts(ages);
      c[0] + c[1] + c[2] + c[3] == |Filter(ages, InAgeRange)|
    decreases |ages|
  {
    if |ages| > 0 {
      var last := ages[|ages| - 1];
      FourCountsCoverRange(ages[..|ages| - 1]);
      InAgeRangeIffBinned(last);
      FilterSnoc(ages, InAgeRange);
    }
  }

  /** The age chart: nothing when the school has no students, otherwise the four labels
      in order with their counts. */
  function AgeDistribution(ages: seq<int>): (d: seq<Bucket>)
    ensures |ages| == 0 ==> d == []
    ensures |ages| > 0 ==> |d| == |AgeLabels|
    ensures forall i :: 0 <= i < |d| ==>
      d[i].name == AgeLabels[i] && d[i].count == |Filter(ages, (a: int) => InBinOf(i, a))|
  {
    if |ages| == 0 then []
    else
      var counts := BinCounts(ages);
      var d := seq(|AgeLabels|, i requires 0 <= i < |AgeLabels| => Bucket(AgeLabels[i], counts[i]));
      assert forall i :: 0 <= i < |d| ==> d[i].count == |Filter(ages, (a: int) => InBinOf(i, a))| by {
        forall i | 0 <= i < |d| {
          BinCountsFilter(ages, i);
        }
      }
      d
  }

  /** With at least one student the age counts add up to the students of age 0 to 17. */
  lemma AgeDistributionTotal(ages: seq<int>)
    ensures Total(AgeDistribution(ages)) == |Filter(ages, InAgeRange)|
  {
    var d := AgeDistribution(ages);
    if |ages| == 0 {
    } else {
      var counts := BinCounts(ages);
      forall i | 0 <= i < |d|
        ensures d[i].count == counts[i]
      {
        BinCountsFilter(ages, i);
      }
      BinCountsTotal(ages);
      TotalOfFour(d);
      SumOfFour(counts);
    }
  }

  lemma TotalOfFour(d: seq<Bucket>)
    requires |d| == 4
    ensures Total(d) == d[0].count + d[1].count + d[2].count + d[3].count
  {
    var d3 := d[3..];
    assert d3[1..] == [];
    assert Total(d[2..]) == d[2].count + Total(d3) by { assert d[2..][1..] == d3; }
    assert Total(d[1..]) == d[1].count + Total(d[2..]) by { assert d[1..][1..] == d[2..]; }
  }

  lemma SumOfFour(xs: seq<nat>)
    requires |xs| == 4
    ensures SumNat(xs) == xs[0] + xs[1] + xs[2] + xs[3]
  {
    assert SumNat(xs[..1]) == xs[0] by { assert xs[..1][..0] == []; }
    assert SumNat(xs[..2]) == SumNat(xs[..1]) + xs[1] by { assert xs[..2][..1] == xs[..1]; }
    assert SumNat(xs[..3]) == SumNat(xs[..2]) + xs[2] by { assert xs[..3][..2] == xs[..2]; }
    assert SumNat(xs) == SumNat(xs[..3]) + xs[3];
  }

  /* ---------------- monthly absences ---------------- */

  /** A mark counted by the trend: an absence, in the given year, of a student of school c. */
  predicate IsAbsence(db: Db, c: nat, year: int, a: Asistencia) {
    && !a.estado
    && a.fecha.year == year
    && a.estudiante < |db.estudiantes|
    && db.estudiantes[a.estudiante].colegio == c
  }

  function Absences(db: Db, c: nat, year: int): (xs: seq<Asistencia>)
    ensures forall i :: 0 <= i < |xs| ==> IsAbsence(db, c, year, xs[i])
    ensures forall a :: multiset(xs)[a] == if IsAbsence(db, c, year, a) then multiset(db.asistencias)[a] else 0
  {
    Filter(db.asistencias, (a: Asistencia) => IsAbsence(db, c, year, a))
  }

  /** The month → count dictionary of the grouped query: only months with an absence
      have a key. */
  function MonthTotals(xs: seq<Asistencia>): (m: map<int, nat>)
    ensures forall k :: k in m ==> m[k] > 0
    decreases |xs|
  {
    if |xs| == 0 then map[]
    else
      var m := MonthTotals(xs[..|xs| - 1]);
      var k := xs[|xs| - 1].fecha.month;
      m[k := Get(m, k) + 1]
  }

  /** `dict.get(k, 0)`. */
  function Get(m: map<int, nat>, k: int): nat {
    if k in m then m[k] else 0
  }

  predicate InMonth(k: int, a: Asistencia) {
    a.fecha.month == k
  }

  /** The dictionary holds, for every month, how many of the marks fall in it. */
  lemma {:induction false} MonthTotalsCount(xs: seq<Asistencia>, k: int)
    ensures Get(MonthTotals(xs), k) == |Filter(xs, (a: Asistencia) => InMonth(k, a))|
    decreases |xs|
  {
    if |xs| > 0 {
      MonthTotalsCount(xs[..|xs| - 1], k);
    }
  }

  /** The twelve values of the chart, January first: `ausencias_dict.get(i, 0)` for
      i from 1 to 12. */
  function Trend(xs: seq<Asistencia>): (t: seq<nat>)
    ensures |t| == 12
  {
    var m := MonthTotals(xs);
    seq(12, i requires 0 <= i < 12 => Get(m, i + 1))
  }

  /** Entry i of the trend counts the marks dated in month i + 1, and is 0 when there
      are none. */
  lemma TrendCounts(xs: seq<Asistencia>)
    ensures forall i :: 0 <= i < 12 ==> Trend(xs)[i] == |Filter(xs, (a: Asistencia) => InMonth(i + 1, a))|
  {
    forall i | 0 <= i < 12
      ensures Trend(xs)[i] == |Filter(xs, (a: Asistencia) => InMonth(i + 1, a))|
    {
      MonthTotalsCount(xs, i + 1);
    }
  }

  /** When every mark is dated in a real month, the trend accounts for every mark. */
  lemma {:induction false} TrendTotal(xs: seq<Asistencia>)
    requires forall i :: 0 <= i < |xs| ==> 1 <= xs[i].fecha.month <= 12
    ensures SumNat(Trend(xs)) == |xs|
    decreases |xs|
  {
    if |xs| == 0 {
      assert MonthTotals(xs) == map[];
      forall i | 0 <= i < 12
        ensures Trend(xs)[i] == seq(12, _ => 0)[i]
      {
        assert Trend(xs)[i] == Get(map[], i + 1);
      }
      assert Trend(xs) == seq(12, _ => 0);
      SumNatZeros(12);
    } else {
      var pre := xs[..|xs| - 1];
      var k := xs[|xs| - 1].fecha.month;
      TrendTotal(pre);
      TrendStep(xs);
      SumNatIncrement(Trend(pre), k - 1);
    }
  }

  /** One more mark raises its month's entry by one. */
  lemma TrendStep(xs: seq<Asistencia>)
    requires |xs| > 0 && 1 <= xs[|xs| - 1].fecha.month <= 12
    ensures var t := Trend(xs[..|xs| - 1]);
      var k := xs[|xs| - 1].fecha.month;
      Trend(xs) == t[k - 1 := t[k - 1] + 1]
  {
    var t := Trend(xs[..|xs| - 1]);
    var k := xs[|xs| - 1].fecha.month;
    var m := MonthTotals(xs[..|xs| - 1]);
    assert MonthTotals(xs) == m[k := Get(m, k) + 1];
    forall i | 0 <= i < 12
      ensures Trend(xs)[i] == t[k - 1 := t[k - 1] + 1][i]
    {
      assert Trend(xs)[i] == Get(MonthTotals(xs), i + 1);
      assert t[i] == Get(m, i + 1);
    }
  }


  /* ---------------- the dashboard ---------------- */

  datatype Summary = Summary(
    totalEstudiantes: nat,
    genero: seq<Bucket>,
    grado: seq<Bucket>,
    edad: seq<Bucket>,
    desercion: seq<nat>)

  function Summarize(db: Db, c: nat, today: Date): (s: Summary)
    ensures s.totalEstudiantes == |SchoolStudents(db, c)|
    ensures Ascending(s.genero) && Positive(s.genero) && Total(s.genero) == s.totalEstudiantes
    ensures forall y :: CountOf(s.genero, y) == multiset(Generos(SchoolStudents(db, c)))[y]
    ensures Ascending(s.grado) && Positive(s.grado) && Total(s.grado) == s.totalEstudiantes
    ensures forall y :: CountOf(s.grado, y) == multiset(Grados(SchoolStudents(db, c)))[y]
    ensures s.totalEstudiantes == 0 <==> s.edad == []
    ensures s.totalEstudiantes > 0 ==> |s.edad| == |AgeLabels|
    ensures forall i :: 0 <= i < |s.edad| ==>
      && s.edad[i].name == AgeLabels[i]
      && s.edad[i].count == |Filter(Ages(SchoolStudents(db, c), today), (a: int) => InBinOf(i, a))|
    ensures Total(s.edad) == |Filter(Ages(SchoolStudents(db, c), today), InAgeRange)|
    ensures |s.desercion| == 12
    ensures forall i :: 0 <= i < 12 ==>
      s.desercion[i] == |Filter(Absences(db, c, today.year), (a: Asistencia) => InMonth(i + 1, a))|
  {
    var ss := SchoolStudents(db, c);
    AgeDistributionTotal(Ages(ss, today));
    TrendCounts(Absences(db, c, today.year));
    Summary(
      |ss|,
      Histogram(Generos(ss)),
      Histogram(Grados(ss)),
      AgeDistribution(Ages(ss, today)),
      Trend(Absences(db, c, today.year)))
  }

  /** In a consistent database every mark has a real date, so the twelve monthly
      values account for every absence of the school in the year. */
  lemma TrendCoversAbsences(db: Db, c: nat, today: Date)
    requires Consistent(db)
    ensures SumNat(Summarize(db, c, today).desercion) == |Absences(db, c, today.year)|
  {
    var xs := Absences(db, c, today.year);
    forall i | 0 <= i < |xs|
      ensures 1 <= xs[i].fecha.month <= 12
    {
      assert multiset(xs)[xs[i]] > 0;
      assert xs[i] in db.asistencias;
    }
    TrendTotal(xs);
  }
}

=== FILE: grouping.dfy ===
/** `values(field).annotate(count=Count(field)).order_by(field)`: one bucket per
    distinct label, with how many values carry it, in ascending label order. */
module Grouping {
  import opened Collation

  datatype Bucket = Bucket(name: string, count: nat)

  /** Labels strictly ascending, hence pairwise distinct. */
  predicate Ascending(d: seq<Bucket>) {
    forall i, j :: 0 <= i < j < |d| ==> Less(d[i].name, d[j].name)
  }

  /** A grouping query never reports an empty group. */
  predicate Positive(d: seq<Bucket>) {
    forall i :: 0 <= i < |d| ==> d[i].count > 0
  }

  /** The count d reports for label y, 0 when y has no bucket. */
  function CountOf(d: seq<Bucket>, y: string): nat
    decreases |d|
  {
    if |d| == 0 then 0
    else (if d[0].name == y then d[0].count else 0) + CountOf(d[1..], y)
  }

  function Total(d: seq<Bucket>): nat
    decreases |d|
  {
    if |d| == 0 then 0 else d[0].count + Total(d[1..])
  }

  /** Counts one more value x, keeping the labels ascending. */
  function Add(d: seq<Bucket>, x: string): (r: seq<Bucket>)
    requires Ascending(d)
    ensures Ascending(r)
    ensures Positive(d) ==> Positive(r)
    ensures forall y :: CountOf(r, y) == CountOf(d, y) + (if y == x then 1 else 0)
    ensures Total(r) == Total(d) + 1
    ensures |r| > 0 && (r[0].name == x || (|d| > 0 && r[0].name == d[0].name))
    decreases |d|
  {
    if |d| == 0 then [Bucket(x, 1)]
    else if d[0].name == x then
      var r := [d[0].(count := d[0].count + 1)] + d[1..];
      Tail(d);
      ConsAscending(r[0], d[1..]);
      ConsCounts(r[0], d[1..]);
      r
    else if Less(x, d[0].name) then
      var r := [Bucket(x, 1)] + d;
      ConsAscending(Bucket(x, 1), d);
      ConsCounts(Bucket(x, 1), d);
      r
    else
      LessTotal(x, d[0].name);
      Tail(d);
      var rest := Add(d[1..], x);
      var r := [d[0]] + rest;
      ConsAscending(d[0], rest);
      ConsCounts(d[0], rest);
      r
  }

  /** Dropping the first bucket keeps the labels ascending and the counts positive. */
  lemma Tail(d: seq<Bucket>)
    requires |d| > 0
    ensures Ascending(d) ==> Ascending(d[1..]) && (|d| > 1 ==> Less(d[0].name, d[1].name))
    ensures Positive(d) ==> Positive(d[1..])
  {
  }

  /** Counts and total of a list with one more bucket in front. */
  lemma ConsCounts(b: Bucket, d: seq<Bucket>)
    ensures forall y :: CountOf([b] + d, y) == (if b.name == y then b.count else 0) + CountOf(d, y)
    ensures Total([b] + d) == b.count + Total(d)
  {
    assert ([b] + d)[1..] == d;
  }

  /** A bucket sorting before the first of an ascending list can be put in front of it. */
  lemma ConsAscending(b: Bucket, d: seq<Bucket>)
    requires Ascending(d) && (|d| > 0 ==> Less(b.name, d[0].name))
    ensures Ascending([b] + d)
  {
    var r := [b] + d;
    forall i, j | 0 <= i < j < |r|
      ensures Less(r[i].name, r[j].name)
    {
      if i == 0 && j > 1 {
        LessTransitive(b.name, d[0].name, d[j - 1].name);
      }
    }
  }

  /** The grouped counts of xs. */
  function Histogram(xs: seq<string>): (d: seq<Bucket>)
    ensures Ascending(d) && Positive(d)
    ensures forall y :: CountOf(d, y) == multiset(xs)[y]
    ensures Total(d) == |xs|
    decreases |xs|
  {
    if |xs| == 0 then []
    else
      var last := |xs| - 1;
      assert xs == xs[..last] + [xs[last]];
      Add(Histogram(xs[..last]), xs[last])
  }

  /** In an ascending list the count looked up for a bucket's label is that bucket's
      count: no other bucket carries the same label. */
  lemma {:induction false} CountOfBucket(d: seq<Bucket>, i: nat)
    requires Ascending(d) && i < |d|
    ensures CountOf(d, d[i].name) == d[i].count
    decreases |d|
  {
    if i == 0 {
      CountOfAbove(d[1..], d[0].name);
    } else {
      assert d[0].name != d[i].name by { LessIrreflexive(d[0].name); }
      CountOfBucket(d[1..], i - 1);
    }
  }

  /** A label sorting before every bucket of an ascending list has count 0. */
  lemma {:induction false} CountOfAbove(d: seq<Bucket>, y: string)
    requires forall i :: 0 <= i < |d| ==> Less(y, d[i].name)
    ensures CountOf(d, y) == 0
    decreases |d|
  {
    if |d| > 0 {
      LessIrreflexive(y);
      CountOfAbove(d[1..], y);
    }
  }

  /** A label with no bucket has count 0. */
  lemma {:induction false} CountOfMissing(d: seq<Bucket>, y: string)
    requires forall i :: 0 <= i < |d| ==> d[i].name != y
    ensures CountOf(d, y) == 0
    decreases |d|
  {
    if |d| > 0 {
      CountOfMissing(d[1..], y);
    }
  }

  /** The labels of the grouped counts are exactly the values that occur. */
  lemma HistogramLabels(xs: seq<string>, y: string)
    ensures (exists i :: 0 <= i < |Histogram(xs)| && Histogram(xs)[i].name == y) <==> y in xs
  {
    var d := Histogram(xs);
    assert y in xs <==> y in multiset(xs);
    if exists i :: 0 <= i < |d| && d[i].name == y {
      var i :| 0 <= i < |d| && d[i].name == y;
      CountOfBucket(d, i);
      assert multiset(xs)[y] > 0;
      assert y in xs;
      assert 0 <= i < |Histogram(xs)| && Histogram(xs)[i].name == y;
    } else {
      CountOfMissing(d, y);
      assert multiset(xs)[y] == 0;
    }
  }

  /** An ascending list of positive counts is determined by its counts: grouping is the
      only such list for xs. */
  lemma {:induction false} Determined(d: seq<Bucket>, e: seq<Bucket>)
    requires Ascending(d) && Positive(d) && Ascending(e) && Positive(e)
    requires forall y :: CountOf(d, y) == CountOf(e, y)
    ensures d == e
    decreases |d|
  {
    SameCountsBothEmpty(d, e);
    if |d| > 0 {
      CountOfBucket(d, 0);
      CountOfBucket(e, 0);
      if d[0].name != e[0].name {
        LessTotal(d[0].name, e[0].name);
        if Less(d[0].name, e[0].name) {
          forall i | 0 <= i < |e|
            ensures Less(d[0].name, e[i].name)
          {
            if i > 0 { LessTransitive(d[0].name, e[0].name, e[i].name); }
          }
          CountOfAbove(e, d[0].name);
        } else {
          forall i | 0 <= i < |d|
            ensures Less(e[0].name, d[i].name)
          {
            if i > 0 { LessTransitive(e[0].name, d[0].name, d[i].name); }
          }
          CountOfAbove(d, e[0].name);
        }
      } else {
        assert d[0] == e[0];
        forall y
          ensures CountOf(d[1..], y) == CountOf(e[1..], y)
        {
          assert CountOf(d, y) == CountOf(e, y);
        }
        Determined(d[1..], e[1..]);
        assert d == [d[0]] + d[1..] && e == [e[0]] + e[1..];
      }
    }
  }

  /** Lists of positive counts reporting the same counts are both empty or both not. */
  lemma SameCountsBothEmpty(d: seq<Bucket>, e: seq<Bucket>)
    requires Positive(d) && Positive(e)
    requires forall y :: CountOf(d, y) == CountOf(e, y)
    ensures |d| == 0 <==> |e| == 0
  {
    if |e| > 0 {
      assert CountOf(d, e[0].name) > 0;
    }
    if |d| > 0 {
      assert CountOf(e, d[0].name) > 0;
    }
  }

  lemma HistogramUnique(xs: seq<string>, d: seq<Bucket>)
    requires Ascending(d) && Positive(d)
    requires forall y :: CountOf(d, y) == multiset(xs)[y]
    ensures d == Histogram(xs)
  {
    Determined(d, Histogram(xs));
  }
}

=== FILE: ingestion.dfy ===
/** The CSV ingestion loop of `subir_archivo`: each row finds or creates its student
    (create-if-absent) and then inserts or overwrites the attendance mark for that
    student and date. The first row that raises stops the loop. */
module Ingestion {
  import opened Calendar
  import opened Text
  import opened Collections
  import opened Models

  /** One CSV row, columns already typed: nombre, apellidos, fecha_nacimiento, genero,
      grado, fecha_asistencia, estado_asistencia. */
  datatype Row = Row(
    nombre: string,
    apellidos: string,
    fechaNacimiento: Date,
    genero: string,
    grado: string,
    fechaAsistencia: Date,
    estadoAsistencia: string)

  /** Both dates of the row are dates the ORM accepts. */
  predicate DatesValid(r: Row) {
    ValidDate(r.fechaNacimiento) && ValidDate(r.fechaAsistencia)
  }

  /** The identity tuple a row is looked up by, for the school `c` being uploaded to. */
  function IdentityFor(r: Row, c: nat): Identity {
    Identity(r.nombre, r.apellidos, r.fechaNacimiento, c)
  }

  /** The student `get_or_create` builds when the lookup finds nobody. */
  function NewStudent(r: Row, c: nat): (e: Estudiante)
    ensures IdentityOf(e) == IdentityFor(r, c)
  {
    Estudiante(c, r.nombre, r.apellidos, r.fechaNacimiento, r.genero, r.grado)
  }

  function FindStudent(db: Db, id: Identity): Found {
    Find(db.estudiantes, IdentityOf, id)
  }

  function FindAttendance(db: Db, k: AttendanceKey): Found {
    Find(db.asistencias, KeyOf, k)
  }

  /** The `estado` stored for a (student, date) pair, if exactly one mark holds it. */
  function EstadoOf(db: Db, k: AttendanceKey): Option<bool> {
    match FindAttendance(db, k)
    case One(p) => Some(db.asistencias[p].estado)
    case _ => None
  }

  /** `Estudiante.objects.get_or_create(...)`: the database after the call and the
      position of the student found or created. Django validates `fecha_nacimiento`
      before the lookup runs; here that check is left to the caller, `IngestRow`, which
      makes it before calling, so only the insert below checks the date again. */
  function GetOrCreateStudent(db: Db, c: nat, r: Row): (res: Result<(Db, nat)>)
    ensures res.Ok? ==> res.value.1 < |res.value.0.estudiantes|
    ensures res.Ok? ==> IdentityOf(res.value.0.estudiantes[res.value.1]) == IdentityFor(r, c)
    ensures res.Ok? ==> res.value.0.colegios == db.colegios && res.value.0.asistencias == db.asistencias
  {
    FindSpec(db.estudiantes, IdentityOf, IdentityFor(r, c));
    match FindStudent(db, IdentityFor(r, c))
    case One(i) => Ok((db, i))
    case Many => Err(MultipleObjectsReturned)
    case Absent =>
      match InsertEstudiante(db, NewStudent(r, c))
      case Ok(db') => Ok((db', |db.estudiantes|))
      case Err(e) => Err(e)
  }

  /** `Asistencia.objects.update_or_create(estudiante, fecha, defaults={'estado': ...})`. */
  function UpdateOrCreateAttendance(db: Db, s: nat, f: Date, estado: bool): (res: Result<Db>)
    ensures res.Ok? ==> res.value.colegios == db.colegios && res.value.estudiantes == db.estudiantes
  {
    match FindAttendance(db, AttendanceKey(s, f))
    case One(p) => Ok(db.(asistencias := db.asistencias[p := db.asistencias[p].(estado := estado)]))
    case Many => Err(MultipleObjectsReturned)
    case Absent => InsertAsistencia(db, Asistencia(s, f, estado))
  }

  /** The database after one row, and the error if the row raised. A failing row keeps
      what it did before raising: a student created before an invalid attendance date. */
  datatype RowResult = RowDone(db: Db) | RowFailed(db: Db, error: DbError)

  /** One iteration of the loop body. The date lookups validate their dates before
      querying, as the ORM does. */
  function IngestRow(db: Db, c: nat, r: Row): RowResult {
    if !ValidDate(r.fechaNacimiento) then RowFailed(db, ValidationError)
    else
      match GetOrCreateStudent(db, c, r)
      case Err(e) => RowFailed(db, e)
      case Ok((db1, s)) =>
        if !ValidDate(r.fechaAsistencia) then RowFailed(db1, ValidationError)
        else
          match UpdateOrCreateAttendance(db1, s, r.fechaAsistencia, Presence(r.estadoAsistencia))
          case Err(e) => RowFailed(db1, e)
          case Ok(db2) => RowDone(db2)
  }

  /** Result of the loop: every row processed with the `registros_creados` count, or
      stopped at the first raising row, `processed` rows having completed before it. */
  datatype Outcome = Processed(db: Db, count: nat) | Aborted(db: Db, processed: nat, error: DbError)

  /** The loop as a fold over the rows in order. */
  function Ingest(db: Db, c: nat, rows: seq<Row>): (out: Outcome)
    ensures out.Processed? ==> out.count == |rows|
    ensures out.Aborted? ==> out.processed < |rows|
    decreases |rows|
  {
    if |rows| == 0 then Processed(db, 0)
    else
      match Ingest(db, c, rows[..|rows| - 1])
      case Aborted(d, n, e) => Aborted(d, n, e)
      case Processed(d, n) =>
        match IngestRow(d, c, rows[|rows| - 1])
        case RowDone(d') => Processed(d', n + 1)
        case RowFailed(d', e) => Aborted(d', n, e)
  }

  /** The loop of `subir_archivo`, row by row with its counter. */
  method Upload(db: Db, c: nat, rows: seq<Row>) returns (out: Outcome)
    ensures out == Ingest(db, c, rows)
    ensures out.Processed? ==> out.count == |rows|
  {
    var state := db;
    var registrosCreados: nat := 0;
    var i := 0;
    while i < |rows|
      invariant 0 <= i <= |rows|
      invariant Ingest(db, c, rows[..i]) == Processed(state, registrosCreados)
    {
      assert rows[..i + 1][..i] == rows[..i];
      var step := IngestRow(state, c, rows[i]);
      if step.RowFailed? {
        IngestAbortedPrefix(db, c, rows, i + 1);
        return Aborted(step.db, registrosCreados, step.error);
      }
      state := step.db;
      registrosCreados := registrosCreados + 1;
      i := i + 1;
    }
    assert rows[..i] == rows;
    out := Processed(state, registrosCreados);
  }

  /** Once a prefix of the rows has stopped the loop, the later rows change nothing. */
  lemma {:induction false} IngestAbortedPrefix(db: Db, c: nat, rows: seq<Row>, i: nat)
    requires i <= |rows|
    requires Ingest(db, c, rows[..i]).Aborted?
    ensures Ingest(db, c, rows) == Ingest(db, c, rows[..i])
    decreases |rows| - i
  {
    if i < |rows| {
      assert rows[..|rows| - 1][..i] == rows[..i];
      IngestAbortedPrefix(db, c, rows[..|rows| - 1], i);
    } else {
      assert rows[..i] == rows;
    }
  }

  /** When a whole sequence is processed, so is every prefix of it. */
  lemma {:induction false} IngestProcessedPrefix(db: Db, c: nat, rows: seq<Row>, i: nat)
    requires i <= |rows|
    requires Ingest(db, c, rows).Processed?
    ensures Ingest(db, c, rows[..i]).Processed?
  {
    if Ingest(db, c, rows[..i]).Aborted? {
      IngestAbortedPrefix(db, c, rows, i);
    }
  }

  /* ---------------- one row ---------------- */

  /** Create-if-absent. A row whose identity tuple matches a stored student reuses it and
      changes nothing, so its genero and grado stay as they are. A row matching nobody adds
      exactly one student carrying the row's genero and grado, provided its birth date is
      valid and its school exists. */
  lemma StudentCreateIfAbsent(db: Db, c: nat, r: Row)
    requires NoDuplicateStudents(db)
    ensures forall i :: 0 <= i < |db.estudiantes| && IdentityOf(db.estudiantes[i]) == IdentityFor(r, c) ==>
      GetOrCreateStudent(db, c, r) == Ok((db, i))
    ensures (forall i :: 0 <= i < |db.estudiantes| ==> IdentityOf(db.estudiantes[i]) != IdentityFor(r, c)) ==>
      && (GetOrCreateStudent(db, c, r).Ok? <==> ValidDate(r.fechaNacimiento) && c < |db.colegios|)
      && (GetOrCreateStudent(db, c, r).Ok? ==>
            GetOrCreateStudent(db, c, r).value == (db.(estudiantes := db.estudiantes + [NewStudent(r, c)]), |db.estudiantes|))
  {
    FindSpec(db.estudiantes, IdentityOf, IdentityFor(r, c));
    FindInUnique(db.estudiantes, IdentityOf, IdentityFor(r, c));
  }

  /** The student step keeps both the database's constraints and the absence of
      duplicate identities. */
  lemma StudentStepInvariants(db: Db, c: nat, r: Row)
    requires Consistent(db) && NoDuplicateStudents(db)
    ensures GetOrCreateStudent(db, c, r).Ok? ==>
      Consistent(GetOrCreateStudent(db, c, r).value.0) && NoDuplicateStudents(GetOrCreateStudent(db, c, r).value.0)
  {
    var id := IdentityFor(r, c);
    if FindStudent(db, id).Absent? {
      UniqueAppend(db.estudiantes, NewStudent(r, c), IdentityOf);
      InsertEstudianteConsistent(db, NewStudent(r, c));
    }
  }

  /** Insert-or-overwrite. For an existing student and a valid date the call succeeds,
      leaves exactly one mark for (student, date) carrying the new estado, and keeps every
      other mark where and as it was; the database's constraints still hold. */
  lemma AttendanceUpsert(db: Db, s: nat, f: Date, estado: bool)
    requires Consistent(db)
    requires s < |db.estudiantes| && ValidDate(f)
    ensures UpdateOrCreateAttendance(db, s, f, estado).Ok?
    ensures var db' := UpdateOrCreateAttendance(db, s, f, estado).value;
      && Consistent(db')
      && FindAttendance(db', AttendanceKey(s, f)).One?
      && db'.asistencias[FindAttendance(db', AttendanceKey(s, f)).index].estado == estado
      && (FindAttendance(db, AttendanceKey(s, f)).One? ==>
            FindAttendance(db', AttendanceKey(s, f)) == FindAttendance(db, AttendanceKey(s, f)))
      && (forall k :: k != AttendanceKey(s, f) ==> FindAttendance(db', k) == FindAttendance(db, k))
      && (forall p :: 0 <= p < |db'.asistencias| && p != FindAttendance(db', AttendanceKey(s, f)).index ==>
            p < |db.asistencias| && db'.asistencias[p] == db.asistencias[p])
  {
    FindInUnique(db.asistencias, KeyOf, AttendanceKey(s, f));
    if FindAttendance(db, AttendanceKey(s, f)).One? {
      UpsertOverwrites(db, s, f, estado);
    } else {
      UpsertInserts(db, s, f, estado);
    }
  }

  /** The overwrite branch of `update_or_create`: the mark found keeps its place and
      every key is found where it was. */
  lemma UpsertOverwrites(db: Db, s: nat, f: Date, estado: bool)
    requires Consistent(db) && FindAttendance(db, AttendanceKey(s, f)).One?
    ensures UpdateOrCreateAttendance(db, s, f, estado).Ok?
    ensures var db' := UpdateOrCreateAttendance(db, s, f, estado).value;
      && Consistent(db')
      && FindAttendance(db', AttendanceKey(s, f)) == FindAttendance(db, AttendanceKey(s, f))
      && db'.asistencias[FindAttendance(db, AttendanceKey(s, f)).index].estado == estado
      && (forall k :: FindAttendance(db', k) == FindAttendance(db, k))
      && (forall p :: 0 <= p < |db'.asistencias| && p != FindAttendance(db, AttendanceKey(s, f)).index ==>
            p < |db.asistencias| && db'.asistencias[p] == db.asistencias[p])
  {
    var p := FindAttendance(db, AttendanceKey(s, f)).index;
    var db' := UpdateOrCreateAttendance(db, s, f, estado).value;
    assert db'.asistencias == db.asistencias[p := db.asistencias[p].(estado := estado)];
    forall k | true
      ensures FindAttendance(db', k) == FindAttendance(db, k)
    {
      FindSameKeys(db.asistencias, db'.asistencias, KeyOf, k);
    }
    assert forall i :: 0 <= i < |db.asistencias| ==> KeyOf(db'.asistencias[i]) == KeyOf(db.asistencias[i]);
    assert Unique(db'.asistencias, KeyOf);
  }

  /** The insert branch of `update_or_create`: the new mark goes last and every other key
      is found where it was. */
  lemma UpsertInserts(db: Db, s: nat, f: Date, estado: bool)
    requires Consistent(db) && FindAttendance(db, AttendanceKey(s, f)).Absent?
    requires s < |db.estudiantes| && ValidDate(f)
    ensures UpdateOrCreateAttendance(db, s, f, estado).Ok?
    ensures var db' := UpdateOrCreateAttendance(db, s, f, estado).value;
      && Consistent(db')
      && FindAttendance(db', AttendanceKey(s, f)) == One(|db.asistencias|)
      && db'.asistencias == db.asistencias + [Asistencia(s, f, estado)]
      && (forall k :: k != AttendanceKey(s, f) ==> FindAttendance(db', k) == FindAttendance(db, k))
  {
    var key := AttendanceKey(s, f);
    var a := Asistencia(s, f, estado);
    InsertAsistenciaSpec(db, a);
    FindSpec(db.asistencias, KeyOf, key);
    var db' := UpdateOrCreateAttendance(db, s, f, estado).value;
    FindAppendNew(db.asistencias, a, KeyOf);
    forall k | k != key
      ensures FindAttendance(db', k) == FindAttendance(db, k)
    {
      FindAppendOther(db.asistencias, a, KeyOf, k);
    }
  }

  /** Where a row's attendance mark sits: its student looked up by identity, then the
      mark looked up by (student, fecha_asistencia). */
  function Slot(db: Db, c: nat, r: Row): Found {
    match FindStudent(db, IdentityFor(r, c))
    case One(s) => FindAttendance(db, AttendanceKey(s, r.fechaAsistencia))
    case Absent => Absent
    case Many => Many
  }

  /** Ingesting a row, successful or not, keeps the database's constraints and the
      absence of duplicate students. */
  lemma RowInvariants(db: Db, c: nat, r: Row)
    requires Consistent(db) && NoDuplicateStudents(db)
    ensures Consistent(IngestRow(db, c, r).db) && NoDuplicateStudents(IngestRow(db, c, r).db)
  {
    StudentStepInvariants(db, c, r);
    if ValidDate(r.fechaNacimiento) && GetOrCreateStudent(db, c, r).Ok? && ValidDate(r.fechaAsistencia) {
      var (db1, s) := GetOrCreateStudent(db, c, r).value;
      AttendanceUpsert(db1, s, r.fechaAsistencia, Presence(r.estadoAsistencia));
    }
  }

  /** For a school that exists, a row fails exactly when one of its dates is not a date,
      and then with a validation error: under the invariants neither lookup can match
      two rows and no insert can break a constraint. */
  lemma RowFailsOnlyOnInvalidDates(db: Db, c: nat, r: Row)
    requires Consistent(db) && NoDuplicateStudents(db)
    requires c < |db.colegios|
    ensures IngestRow(db, c, r).RowDone? <==> DatesValid(r)
    ensures IngestRow(db, c, r).RowFailed? ==> IngestRow(db, c, r).error == ValidationError
  {
    StudentCreateIfAbsent(db, c, r);
    StudentStepInvariants(db, c, r);
    FindInUnique(db.estudiantes, IdentityOf, IdentityFor(r, c));
    if ValidDate(r.fechaNacimiento) && ValidDate(r.fechaAsistencia) {
      var (db1, s) := GetOrCreateStudent(db, c, r).value;
      AttendanceUpsert(db1, s, r.fechaAsistencia, Presence(r.estadoAsistencia));
    }
  }

  /** The effect of one successful row: the student is reused or added, the row's
      (student, date) pair then has exactly one mark and it carries the row's flag, and
      every other pair keeps its estado. */
  lemma RowEffect(db: Db, c: nat, r: Row)
    requires Consistent(db) && NoDuplicateStudents(db)
    ensures var db' := IngestRow(db, c, r).db;
      IngestRow(db, c, r).RowDone? ==>
      && db'.colegios == db.colegios
      && ((exists i :: 0 <= i < |db.estudiantes| && IdentityOf(db.estudiantes[i]) == IdentityFor(r, c)) ==>
            db'.estudiantes == db.estudiantes)
      && ((forall i :: 0 <= i < |db.estudiantes| ==> IdentityOf(db.estudiantes[i]) != IdentityFor(r, c)) ==>
            db'.estudiantes == db.estudiantes + [NewStudent(r, c)])
      && Slot(db', c, r).One?
      && db'.asistencias[Slot(db', c, r).index].estado == Presence(r.estadoAsistencia)
      && FindStudent(db', IdentityFor(r, c)).One?
      && (forall k :: k != AttendanceKey(FindStudent(db', IdentityFor(r, c)).index, r.fechaAsistencia) ==>
            EstadoOf(db', k) == EstadoOf(db, k))
  {
    if IngestRow(db, c, r).RowDone? {
      RowStudents(db, c, r);
      RowStudentFound(db, c, r);
      RowOthers(db, c, r);
    }
  }

  /** A successful row reuses the student it matches, or appends the one it builds. */
  lemma RowStudents(db: Db, c: nat, r: Row)
    requires NoDuplicateStudents(db)
    ensures var db' := IngestRow(db, c, r).db;
      IngestRow(db, c, r).RowDone? ==>
      && db'.colegios == db.colegios
      && ((exists i :: 0 <= i < |db.estudiantes| && IdentityOf(db.estudiantes[i]) == IdentityFor(r, c)) ==>
            db'.estudiantes == db.estudiantes)
      && ((forall i :: 0 <= i < |db.estudiantes| ==> IdentityOf(db.estudiantes[i]) != IdentityFor(r, c)) ==>
            db'.estudiantes == db.estudiantes + [NewStudent(r, c)])
  {
    if IngestRow(db, c, r).RowDone? {
      RowDoneParts(db, c, r);
      StudentCreateIfAbsent(db, c, r);
    }
  }

  /** After a successful row its mark is in place with the row's flag. */
  lemma RowMark(db: Db, c: nat, r: Row)
    requires Consistent(db) && NoDuplicateStudents(db)
    ensures var db' := IngestRow(db, c, r).db;
      IngestRow(db, c, r).RowDone? ==>
      && Slot(db', c, r).One?
      && db'.asistencias[Slot(db', c, r).index].estado == Presence(r.estadoAsistencia)
  {
    if IngestRow(db, c, r).RowDone? {
      RowStudentFound(db, c, r);
    }
  }

  /** After a successful row its student is found once, where the student step put it,
      and its mark is in place with the row's flag. */
  lemma RowStudentFound(db: Db, c: nat, r: Row)
    requires Consistent(db) && NoDuplicateStudents(db)
    ensures var db' := IngestRow(db, c, r).db;
      IngestRow(db, c, r).RowDone? ==>
      && FindStudent(db', IdentityFor(r, c)) == One(GetOrCreateStudent(db, c, r).value.1)
      && Slot(db', c, r).One?
      && db'.asistencias[Slot(db', c, r).index].estado == Presence(r.estadoAsistencia)
  {
    if IngestRow(db, c, r).RowDone? {
      RowDoneParts(db, c, r);
      StudentStepInvariants(db, c, r);
      var (db1, s) := GetOrCreateStudent(db, c, r).value;
      FoundOnce(db1, s);
      AttendanceUpsert(db1, s, r.fechaAsistencia, Presence(r.estadoAsistencia));
    }
  }

  /** A successful row had valid dates. */
  lemma RowDoneDatesValid(db: Db, c: nat, r: Row)
    ensures IngestRow(db, c, r).RowDone? ==> DatesValid(r)
  {
  }

  /** Without duplicate identities a student is found at its own position. */
  lemma FoundOnce(db: Db, s: nat)
    requires NoDuplicateStudents(db) && s < |db.estudiantes|
    ensures FindStudent(db, IdentityOf(db.estudiantes[s])) == One(s)
  {
    FindSpec(db.estudiantes, IdentityOf, IdentityOf(db.estudiantes[s]));
    FindInUnique(db.estudiantes, IdentityOf, IdentityOf(db.estudiantes[s]));
  }

  /** A successful row leaves the estado of every other (student, date) pair alone. */
  lemma RowOthers(db: Db, c: nat, r: Row)
    requires Consistent(db) && NoDuplicateStudents(db)
    ensures var db' := IngestRow(db, c, r).db;
      IngestRow(db, c, r).RowDone? ==>
      forall k :: k != AttendanceKey(GetOrCreateStudent(db, c, r).value.1, r.fechaAsistencia) ==>
        EstadoOf(db', k) == EstadoOf(db, k)
  {
    if IngestRow(db, c, r).RowDone? {
      RowDoneParts(db, c, r);
      StudentStepInvariants(db, c, r);
      var (db1, s) := GetOrCreateStudent(db, c, r).value;
      AttendanceUpsert(db1, s, r.fechaAsistencia, Presence(r.estadoAsistencia));
      OtherMarksKeepEstado(db1, IngestRow(db, c, r).db, AttendanceKey(s, r.fechaAsistencia));
    }
  }

  /** A successful row went through both lookups: the student step succeeded and the
      attendance step produced the final database. */
  lemma RowDoneParts(db: Db, c: nat, r: Row)
    ensures IngestRow(db, c, r).RowDone? ==>
      && DatesValid(r)
      && GetOrCreateStudent(db, c, r).Ok?
      && UpdateOrCreateAttendance(GetOrCreateStudent(db, c, r).value.0, GetOrCreateStudent(db, c, r).value.1,
           r.fechaAsistencia, Presence(r.estadoAsistencia)) == Ok(IngestRow(db, c, r).db)
  {
  }

  /** When every other key is found where it was and every other mark is untouched,
      every other key keeps its estado. */
  lemma OtherMarksKeepEstado(a: Db, b: Db, key: AttendanceKey)
    requires FindAttendance(b, key).One?
    requires forall k :: k != key ==> FindAttendance(b, k) == FindAttendance(a, k)
    requires forall p :: 0 <= p < |b.asistencias| && p != FindAttendance(b, key).index ==>
      p < |a.asistencias| && b.asistencias[p] == a.asistencias[p]
    ensures forall k :: k != key ==> EstadoOf(b, k) == EstadoOf(a, k)
  {
    forall k | k != key
      ensures EstadoOf(b, k) == EstadoOf(a, k)
    {
      match FindAttendance(b, k)
      case One(q) =>
        FindSpec(b.asistencias, KeyOf, k);
        FindSpec(b.asistencias, KeyOf, key);
      case _ =>
    }
  }

  /** A row whose mark is already in place keeps its place while another row is
      ingested: the student may gain a neighbour and the mark may gain one, but neither
      moves. */
  lemma RowKeepsSlots(db: Db, c: nat, r: Row, q: Row)
    requires Consistent(db) && NoDuplicateStudents(db)
    requires IngestRow(db, c, r).RowDone?
    requires Slot(db, c, q).One?
    ensures Slot(IngestRow(db, c, r).db, c, q) == Slot(db, c, q)
  {
    var db' := IngestRow(db, c, r).db;
    RowDoneParts(db, c, r);
    StudentCreateIfAbsent(db, c, r);
    StudentStepInvariants(db, c, r);
    var (db1, s) := GetOrCreateStudent(db, c, r).value;
    AttendanceUpsert(db1, s, r.fechaAsistencia, Presence(r.estadoAsistencia));
    var sq := FindStudent(db, IdentityFor(q, c)).index;
    assert FindStudent(db1, IdentityFor(q, c)) == One(sq) by {
      if FindStudent(db, IdentityFor(r, c)).Absent? {
        FindAppendOther(db.estudiantes, NewStudent(r, c), IdentityOf, IdentityFor(q, c));
      }
    }
    var kq := AttendanceKey(sq, q.fechaAsistencia);
    assert FindAttendance(db', kq) == FindAttendance(db1, kq);
  }

  /* ---------------- the whole file ---------------- */

  /** The invariants hold after ingestion, whether it finished or stopped. */
  lemma {:induction false} IngestInvariants(db: Db, c: nat, rows: seq<Row>)
    requires Consistent(db) && NoDuplicateStudents(db)
    ensures Consistent(Ingest(db, c, rows).db) && NoDuplicateStudents(Ingest(db, c, rows).db)
    decreases |rows|
  {
    if |rows| > 0 {
      var pre := rows[..|rows| - 1];
      IngestInvariants(db, c, pre);
      if Ingest(db, c, pre).Processed? {
        RowInvariants(Ingest(db, c, pre).db, c, rows[|rows| - 1]);
      }
    }
  }

  /** For a school that exists the loop reports every row exactly when all dates are
      valid; otherwise it stops with a validation error at the first row with an invalid
      date, after processing all rows before it. */
  lemma {:induction false} IngestStopsAtFirstInvalidRow(db: Db, c: nat, rows: seq<Row>)
    requires Consistent(db) && NoDuplicateStudents(db)
    requires c < |db.colegios|
    ensures Ingest(db, c, rows).Processed? <==> AllDatesValid(rows)
    ensures Ingest(db, c, rows).Aborted? ==>
      && Ingest(db, c, rows).error == ValidationError
      && !DatesValid(rows[Ingest(db, c, rows).processed])
      && AllDatesValid(rows[..Ingest(db, c, rows).processed])
    decreases |rows|
  {
    if |rows| > 0 {
      var pre := rows[..|rows| - 1];
      var last := rows[|rows| - 1];
      IngestStopsAtFirstInvalidRow(db, c, pre);
      match Ingest(db, c, pre)
      case Processed(d, n) =>
        IngestInvariants(db, c, pre);
        IngestKeepsSchools(db, c, pre);
        RowFailsOnlyOnInvalidDates(d, c, last);
        LastRowStep(db, c, rows);
        AllDatesValidSnoc(rows);
      case Aborted(d, n, e) =>
        assert Ingest(db, c, rows) == Aborted(d, n, e);
        assert pre[..n] == rows[..n];
        assert rows[n] == pre[n];
    }
  }

  predicate AllDatesValid(rows: seq<Row>) {
    forall k :: 0 <= k < |rows| ==> DatesValid(rows[k])
  }

  lemma AllDatesValidSnoc(rows: seq<Row>)
    requires |rows| > 0
    ensures AllDatesValid(rows) <==> AllDatesValid(rows[..|rows| - 1]) && DatesValid(rows[|rows| - 1])
  {
    var pre := rows[..|rows| - 1];
    assert forall k :: 0 <= k < |pre| ==> pre[k] == rows[k];
  }

  /** The last step of a fold whose prefix was processed. */
  lemma LastRowStep(db: Db, c: nat, rows: seq<Row>)
    requires |rows| > 0
    ensures var d := Ingest(db, c, rows[..|rows| - 1]).db;
      Ingest(db, c, rows[..|rows| - 1]).Processed? ==>
      match IngestRow(d, c, rows[|rows| - 1])
         case RowDone(d') => Ingest(db, c, rows) == Processed(d', |rows|)
         case RowFailed(d', e) => Ingest(db, c, rows) == Aborted(d', |rows| - 1, e)
  {
    assert rows[..|rows| - 1][..|rows| - 1] == rows[..|rows| - 1];
  }

  /** Ingestion never touches the schools. */
  lemma {:induction false} IngestKeepsSchools(db: Db, c: nat, rows: seq<Row>)
    ensures Ingest(db, c, rows).db.colegios == db.colegios
    decreases |rows|
  {
    if |rows| > 0 {
      IngestKeepsSchools(db, c, rows[..|rows| - 1]);
    }
  }

  /** The loop over `a + b` is the loop over `a` followed by the loop over `b`. */
  function Then(out: Outcome, c: nat, b: seq<Row>): Outcome {
    match out
    case Aborted(d, n, e) => out
    case Processed(d, n) =>
      match Ingest(d, c, b)
      case Processed(d', m) => Processed(d', n + m)
      case Aborted(d', m, e) => Aborted(d', n + m, e)
  }

  lemma {:induction false} IngestConcat(db: Db, c: nat, a: seq<Row>, b: seq<Row>)
    ensures Ingest(db, c, a + b) == Then(Ingest(db, c, a), c, b)
    decreases |b|
  {
    if |b| == 0 {
      assert a + b == a;
    } else {
      var b' := b[..|b| - 1];
      assert (a + b)[..|a + b| - 1] == a + b';
      assert (a + b)[|a + b| - 1] == b[|b| - 1];
      IngestConcat(db, c, a, b');
    }
  }

  /* ---------------- last row wins, and idempotence ---------------- */

  /** The flag of the last row among `rows` whose mark sits at position p. */
  function LastFlag(db: Db, c: nat, rows: seq<Row>, p: nat): Option<bool>
    decreases |rows|
  {
    if |rows| == 0 then None
    else if Slot(db, c, rows[|rows| - 1]) == One(p) then Some(Presence(rows[|rows| - 1].estadoAsistencia))
    else LastFlag(db, c, rows[..|rows| - 1], p)
  }

  /** Row k is the last of `rows` whose mark sits at position p. */
  predicate IsLastFor(db: Db, c: nat, rows: seq<Row>, p: nat, k: int) {
    && 0 <= k < |rows|
    && Slot(db, c, rows[k]) == One(p)
    && forall k' :: k < k' < |rows| ==> Slot(db, c, rows[k']) != One(p)
  }

  /** LastFlag is the flag of the last row addressing p, and nothing when no row does. */
  lemma {:induction false} LastFlagIsLastRow(db: Db, c: nat, rows: seq<Row>, p: nat)
    ensures forall k :: IsLastFor(db, c, rows, p, k) ==>
      LastFlag(db, c, rows, p) == Some(Presence(rows[k].estadoAsistencia))
    ensures LastFlag(db, c, rows, p) == None <==> forall k :: 0 <= k < |rows| ==> Slot(db, c, rows[k]) != One(p)
    decreases |rows|
  {
    if |rows| > 0 {
      var last := |rows| - 1;
      var pre := rows[..last];
      LastFlagIsLastRow(db, c, pre, p);
      if Slot(db, c, rows[last]) == One(p) {
        forall k | IsLastFor(db, c, rows, p, k)
          ensures k == last
        {
        }
      } else {
        forall k | IsLastFor(db, c, rows, p, k)
          ensures IsLastFor(db, c, pre, p, k)
        {
          assert k < last;
          forall k' | k < k' < last
            ensures Slot(db, c, pre[k']) != One(p)
          {
            assert pre[k'] == rows[k'];
          }
          assert pre[k] == rows[k];
        }
        assert (forall k :: 0 <= k < |rows| ==> Slot(db, c, rows[k]) != One(p)) <==>
          (forall k :: 0 <= k < last ==> Slot(db, c, pre[k]) != One(p)) by {
          assert forall k :: 0 <= k < last ==> pre[k] == rows[k];
        }
      }
    }
  }

  /** Every row's mark exists and both its dates are valid. */
  predicate Settled(db: Db, c: nat, rows: seq<Row>) {
    forall k :: 0 <= k < |rows| ==> DatesValid(rows[k]) && Slot(db, c, rows[k]).One?
  }

  /** Every mark some row addresses carries the flag of the last such row. */
  predicate LastRowWins(db: Db, c: nat, rows: seq<Row>) {
    forall p :: 0 <= p < |db.asistencias| && LastFlag(db, c, rows, p).Some? ==>
      db.asistencias[p].estado == LastFlag(db, c, rows, p).value
  }

  /** The database with every mark the rows address set to its last row's flag. */
  function Overwrite(db: Db, c: nat, rows: seq<Row>): Db {
    var a := db.asistencias;
    db.(asistencias := seq(|a|, p requires 0 <= p < |a| =>
      match LastFlag(db, c, rows, p)
      case Some(b) => a[p].(estado := b)
      case None => a[p]))
  }

  /** LastFlag only depends on where the rows' marks sit. */
  lemma {:induction false} LastFlagSameSlots(db: Db, db': Db, c: nat, rows: seq<Row>, p: nat)
    requires forall k :: 0 <= k < |rows| ==> Slot(db, c, rows[k]) == Slot(db', c, rows[k])
    ensures LastFlag(db, c, rows, p) == LastFlag(db', c, rows, p)
    decreases |rows|
  {
    if |rows| > 0 {
      LastFlagSameSlots(db, db', c, rows[..|rows| - 1], p);
    }
  }

  /** Replaying rows whose marks all exist leaves the students alone and sets each
      addressed mark to the flag of the last row addressing it. */
  lemma {:induction false} ReplayOverwrites(db: Db, c: nat, rows: seq<Row>)
    requires Consistent(db) && NoDuplicateStudents(db)
    requires Settled(db, c, rows)
    ensures Ingest(db, c, rows) == Processed(Overwrite(db, c, rows), |rows|)
    decreases |rows|
  {
    if |rows| == 0 {
      assert Overwrite(db, c, rows).asistencias == db.asistencias;
    } else {
      var pre := rows[..|rows| - 1];
      assert Settled(db, c, pre);
      ReplayOverwrites(db, c, pre);
      ReplayStep(db, c, rows);
    }
  }

  /** Overwriting flags keeps every table's layout: same students, same schools, and a
      mark with the same key at every position. */
  lemma OverwriteKeepsKeys(db: Db, c: nat, rows: seq<Row>)
    ensures var o := Overwrite(db, c, rows);
      && o.colegios == db.colegios && o.estudiantes == db.estudiantes
      && |o.asistencias| == |db.asistencias|
      && forall i :: 0 <= i < |db.asistencias| ==> KeyOf(o.asistencias[i]) == KeyOf(db.asistencias[i])
  {
  }

  /** Replaying the last row after the others have been replayed. */
  lemma ReplayStep(db: Db, c: nat, rows: seq<Row>)
    requires |rows| > 0
    requires Consistent(db) && NoDuplicateStudents(db)
    requires Settled(db, c, rows)
    ensures IngestRow(Overwrite(db, c, rows[..|rows| - 1]), c, rows[|rows| - 1]) == RowDone(Overwrite(db, c, rows))
  {
    var last := |rows| - 1;
    var pre := rows[..last];
    var r := rows[last];
    var d := Overwrite(db, c, pre);
    var s := FindStudent(db, IdentityFor(r, c)).index;
    var key := AttendanceKey(s, r.fechaAsistencia);
    var p0 := FindAttendance(db, key).index;
    assert DatesValid(r) && Slot(db, c, r) == One(p0);
    OverwriteKeepsKeys(db, c, pre);
    FindSameKeys(db.asistencias, d.asistencias, KeyOf, key);
    assert GetOrCreateStudent(d, c, r) == Ok((d, s));
    var d2 := d.(asistencias := d.asistencias[p0 := d.asistencias[p0].(estado := Presence(r.estadoAsistencia))]);
    assert IngestRow(d, c, r) == RowDone(d2);
    OverwriteLast(db, c, rows, p0);
  }

  /** Setting the last row's mark on top of the earlier rows' overwrite is the overwrite
      for all rows. */
  lemma OverwriteLast(db: Db, c: nat, rows: seq<Row>, p0: nat)
    requires |rows| > 0 && Slot(db, c, rows[|rows| - 1]) == One(p0)
    ensures var d := Overwrite(db, c, rows[..|rows| - 1]);
      p0 < |d.asistencias| &&
      d.(asistencias := d.asistencias[p0 := d.asistencias[p0].(estado := Presence(rows[|rows| - 1].estadoAsistencia))])
        == Overwrite(db, c, rows)
  {
    var pre := rows[..|rows| - 1];
    var d := Overwrite(db, c, pre);
    var d2 := d.(asistencias := d.asistencias[p0 := d.asistencias[p0].(estado := Presence(rows[|rows| - 1].estadoAsistencia))]);
    var o := Overwrite(db, c, rows);
    forall p | 0 <= p < |db.asistencias|
      ensures d2.asistencias[p] == o.asistencias[p]
    {
      if p != p0 {
        assert LastFlag(db, c, rows, p) == LastFlag(db, c, pre, p);
      }
    }
    assert d2.asistencias == o.asistencias;
  }

  /** After a successful ingestion every row's mark exists and carries the flag of the
      last row addressing it; the invariants hold. */
  lemma {:induction false} IngestSettles(db: Db, c: nat, rows: seq<Row>)
    requires Consistent(db) && NoDuplicateStudents(db)
    requires Ingest(db, c, rows).Processed?
    ensures var db1 := Ingest(db, c, rows).db;
      Consistent(db1) && NoDuplicateStudents(db1) && Settled(db1, c, rows) && LastRowWins(db1, c, rows)
    decreases |rows|
  {
    IngestInvariants(db, c, rows);
    if |rows| > 0 {
      var pre := rows[..|rows| - 1];
      IngestProcessedPrefix(db, c, rows, |rows| - 1);
      IngestSettles(db, c, pre);
      LastRowStep(db, c, rows);
      SettleStep(Ingest(db, c, pre).db, c, rows);
    }
  }

  /** One more successful row keeps every earlier row's mark in place, puts the new
      row's mark in place, and keeps the last row winning. */
  lemma SettleStep(dm: Db, c: nat, rows: seq<Row>)
    requires |rows| > 0
    requires Consistent(dm) && NoDuplicateStudents(dm)
    requires Settled(dm, c, rows[..|rows| - 1]) && LastRowWins(dm, c, rows[..|rows| - 1])
    requires IngestRow(dm, c, rows[|rows| - 1]).RowDone?
    ensures Settled(IngestRow(dm, c, rows[|rows| - 1]).db, c, rows)
    ensures LastRowWins(IngestRow(dm, c, rows[|rows| - 1]).db, c, rows)
  {
    SettledStep(dm, c, rows);
    WinsStep(dm, c, rows);
  }

  lemma SettledStep(dm: Db, c: nat, rows: seq<Row>)
    requires |rows| > 0
    requires Consistent(dm) && NoDuplicateStudents(dm)
    requires Settled(dm, c, rows[..|rows| - 1])
    requires IngestRow(dm, c, rows[|rows| - 1]).RowDone?
    ensures Settled(IngestRow(dm, c, rows[|rows| - 1]).db, c, rows)
    ensures forall k :: 0 <= k < |rows| - 1 ==>
      Slot(IngestRow(dm, c, rows[|rows| - 1]).db, c, rows[k]) == Slot(dm, c, rows[k])
  {
    var last := |rows| - 1;
    var pre := rows[..last];
    var r := rows[last];
    var db1 := IngestRow(dm, c, r).db;
    RowMark(dm, c, r);
    RowDoneDatesValid(dm, c, r);
    assert DatesValid(r) && Slot(db1, c, r).One?;
    KeepSlots(dm, c, r, pre);
    forall k | 0 <= k < last
      ensures DatesValid(rows[k]) && Slot(db1, c, rows[k]) == Slot(dm, c, rows[k]) && Slot(dm, c, rows[k]).One?
    {
      assert rows[k] == pre[k];
    }
    assert rows[last] == r;
  }

  /** Rows whose marks are in place keep them while another row is ingested. */
  lemma KeepSlots(dm: Db, c: nat, r: Row, rows: seq<Row>)
    requires Consistent(dm) && NoDuplicateStudents(dm)
    requires IngestRow(dm, c, r).RowDone?
    requires forall k :: 0 <= k < |rows| ==> Slot(dm, c, rows[k]).One?
    ensures forall k :: 0 <= k < |rows| ==> Slot(IngestRow(dm, c, r).db, c, rows[k]) == Slot(dm, c, rows[k])
  {
    forall k | 0 <= k < |rows|
      ensures Slot(IngestRow(dm, c, r).db, c, rows[k]) == Slot(dm, c, rows[k])
    {
      RowKeepsSlots(dm, c, r, rows[k]);
    }
  }

  lemma WinsStep(dm: Db, c: nat, rows: seq<Row>)
    requires |rows| > 0
    requires Consistent(dm) && NoDuplicateStudents(dm)
    requires Settled(dm, c, rows[..|rows| - 1]) && LastRowWins(dm, c, rows[..|rows| - 1])
    requires IngestRow(dm, c, rows[|rows| - 1]).RowDone?
    ensures LastRowWins(IngestRow(dm, c, rows[|rows| - 1]).db, c, rows)
  {
    var last := |rows| - 1;
    var pre := rows[..last];
    var r := rows[last];
    var db1 := IngestRow(dm, c, r).db;
    SettledStep(dm, c, rows);
    RowMark(dm, c, r);
    var p0 := Slot(db1, c, r).index;
    assert pre[..last] == pre;
    forall p | 0 <= p < |db1.asistencias| && LastFlag(db1, c, rows, p).Some?
      ensures db1.asistencias[p].estado == LastFlag(db1, c, rows, p).value
    {
      if p != p0 {
        assert LastFlag(db1, c, rows, p) == LastFlag(db1, c, pre, p);
        forall k | 0 <= k < |pre|
          ensures Slot(db1, c, pre[k]) == Slot(dm, c, pre[k])
        {
          assert pre[k] == rows[k];
        }
        LastFlagSameSlots(db1, dm, c, pre, p);
        AttendanceStable(dm, c, r, p, p0);
      }
    }
  }

  lemma AttendanceStable(dm: Db, c: nat, r: Row, p: nat, p0: nat)
    requires Consistent(dm) && NoDuplicateStudents(dm)
    requires IngestRow(dm, c, r).RowDone?
    requires Slot(IngestRow(dm, c, r).db, c, r).One?
    requires p0 == Slot(IngestRow(dm, c, r).db, c, r).index
    requires p != p0 && p < |IngestRow(dm, c, r).db.asistencias|
    ensures p < |dm.asistencias| && IngestRow(dm, c, r).db.asistencias[p] == dm.asistencias[p]
  {
    RowDoneParts(dm, c, r);
    StudentStepInvariants(dm, c, r);
    var (db1, s) := GetOrCreateStudent(dm, c, r).value;
    RowStudentFound(dm, c, r);
    AttendanceUpsert(db1, s, r.fechaAsistencia, Presence(r.estadoAsistencia));
  }

  /** When the last row already wins everywhere, overwriting changes nothing. */
  lemma OverwriteIdentity(db: Db, c: nat, rows: seq<Row>)
    requires LastRowWins(db, c, rows)
    ensures Overwrite(db, c, rows) == db
  {
    var o := Overwrite(db, c, rows);
    forall p | 0 <= p < |db.asistencias|
      ensures o.asistencias[p] == db.asistencias[p]
    {
    }
    assert o.asistencias == db.asistencias;
  }

  /** Uploading the same rows again, after an upload of them went through, changes
      neither the students nor the marks and reports the same count. */
  lemma IngestIdempotent(db: Db, c: nat, rows: seq<Row>)
    requires Consistent(db) && NoDuplicateStudents(db)
    requires Ingest(db, c, rows).Processed?
    ensures var db1 := Ingest(db, c, rows).db;
      Ingest(db1, c, rows) == Processed(db1, |rows|)
  {
    var db1 := Ingest(db, c, rows).db;
    IngestSettles(db, c, rows);
    ReplayOverwrites(db1, c, rows);
    OverwriteIdentity(db1, c, rows);
  }

  /** A file holding the same rows twice ends in the state of holding them once, with
      every row counted. */
  lemma IngestTwice(db: Db, c: nat, rows: seq<Row>)
    requires Consistent(db) && NoDuplicateStudents(db)
    requires Ingest(db, c, rows).Processed?
    ensures Ingest(db, c, rows + rows) == Processed(Ingest(db, c, rows).db, 2 * |rows|)
  {
    IngestConcat(db, c, rows, rows);
    IngestIdempotent(db, c, rows);
  }

  /** Uploading the same rows a second time leaves the state the first upload left and
      reports the same outcome, whether the first upload went through or stopped at a
      row: the rows before that row only rewrite their marks with the flags already
      stored, and the row raises again, without effect. */
  lemma {:induction false} IngestIdempotentAlways(db: Db, c: nat, rows: seq<Row>)
    requires Consistent(db) && NoDuplicateStudents(db)
    ensures Ingest(Ingest(db, c, rows).db, c, rows) == Ingest(db, c, rows)
    decreases |rows|
  {
    if |rows| > 0 {
      var pre := rows[..|rows| - 1];
      match Ingest(db, c, pre)
      case Aborted(d, n, e) =>
        IngestIdempotentAlways(db, c, pre);
        assert Ingest(db, c, rows) == Aborted(d, n, e);
      case Processed(dm, n) =>
        if IngestRow(dm, c, rows[|rows| - 1]).RowDone? {
          IngestIdempotent(db, c, rows);
        } else {
          StoppedUploadRepeats(db, c, rows);
        }
    }
  }

  /** An upload whose rows all went through except the last one, which raised, stops at
      that row again when repeated on the state it left. */
  lemma StoppedUploadRepeats(db: Db, c: nat, rows: seq<Row>)
    requires |rows| > 0
    requires Consistent(db) && NoDuplicateStudents(db)
    ensures var dm := Ingest(db, c, rows[..|rows| - 1]).db;
      Ingest(db, c, rows[..|rows| - 1]).Processed? && IngestRow(dm, c, rows[|rows| - 1]).RowFailed? ==>
      Ingest(Ingest(db, c, rows).db, c, rows) == Ingest(db, c, rows)
  {
    var pre := rows[..|rows| - 1];
    var last := rows[|rows| - 1];
    var dm := Ingest(db, c, pre).db;
    if Ingest(db, c, pre).Processed? && IngestRow(dm, c, last).RowFailed? {
      var d := IngestRow(dm, c, last).db;
      LastRowStep(db, c, rows);
      assert Ingest(db, c, rows) == Aborted(d, |pre|, IngestRow(dm, c, last).error);
      IngestSettles(db, c, pre);
      FailedRowKeepsSlots(dm, c, last);
      RowInvariants(dm, c, last);
      forall k | 0 <= k < |pre|
        ensures Slot(d, c, pre[k]) == Slot(dm, c, pre[k])
      {
      }
      forall p | 0 <= p < |d.asistencias|
        ensures LastFlag(d, c, pre, p) == LastFlag(dm, c, pre, p)
      {
        LastFlagSameSlots(d, dm, c, pre, p);
      }
      ReplayOverwrites(d, c, pre);
      OverwriteIdentity(d, c, pre);
      FailedRowRepeats(dm, c, last);
      LastRowStep(d, c, rows);
    }
  }

  /** A row that raised leaves schools and marks alone and at most appends its own new
      student, so every mark that was in place is still found where it was. */
  lemma FailedRowKeepsSlots(dm: Db, c: nat, r: Row)
    requires NoDuplicateStudents(dm)
    ensures var d := IngestRow(dm, c, r).db;
      IngestRow(dm, c, r).RowFailed? ==>
      && d.colegios == dm.colegios && d.asistencias == dm.asistencias
      && (d.estudiantes == dm.estudiantes || d.estudiantes == dm.estudiantes + [NewStudent(r, c)])
      && forall q :: Slot(dm, c, q).One? ==> Slot(d, c, q) == Slot(dm, c, q)
  {
    var id := IdentityFor(r, c);
    if ValidDate(r.fechaNacimiento) && GetOrCreateStudent(dm, c, r).Ok? && FindStudent(dm, id).Absent? {
      StudentCreateIfAbsent(dm, c, r);
      FindSpec(dm.estudiantes, IdentityOf, id);
      forall q | Slot(dm, c, q).One?
        ensures FindStudent(GetOrCreateStudent(dm, c, r).value.0, IdentityFor(q, c)) == FindStudent(dm, IdentityFor(q, c))
      {
        FindAppendOther(dm.estudiantes, NewStudent(r, c), IdentityOf, IdentityFor(q, c));
      }
    }
  }

  /** A row that raised raises again, with the same error and no further effect, when it
      is replayed on the state it left: the student it may have created is found now,
      and the step that raised raises again. */
  lemma FailedRowRepeats(dm: Db, c: nat, r: Row)
    requires Consistent(dm) && NoDuplicateStudents(dm)
    ensures IngestRow(dm, c, r).RowFailed? ==>
      IngestRow(IngestRow(dm, c, r).db, c, r) == IngestRow(dm, c, r)
  {
    if IngestRow(dm, c, r).RowFailed? && ValidDate(r.fechaNacimiento) && GetOrCreateStudent(dm, c, r).Ok? {
      var (db1, s) := GetOrCreateStudent(dm, c, r).value;
      StudentStepInvariants(dm, c, r);
      FoundOnce(db1, s);
      assert GetOrCreateStudent(db1, c, r) == Ok((db1, s));
    }
  }

  /** After a successful upload every row's mark exists, and a row that is the last one
      addressing its mark has its flag stored there. */
  lemma IngestLastRowWins(db: Db, c: nat, rows: seq<Row>)
    requires Consistent(db) && NoDuplicateStudents(db)
    requires Ingest(db, c, rows).Processed?
    ensures var db1 := Ingest(db, c, rows).db;
      forall k :: 0 <= k < |rows| ==>
        && Slot(db1, c, rows[k]).One?
        && (IsLastFor(db1, c, rows, Slot(db1, c, rows[k]).index, k) ==>
              db1.asistencias[Slot(db1, c, rows[k]).index].estado == Presence(rows[k].estadoAsistencia))
  {
    var db1 := Ingest(db, c, rows).db;
    IngestSettles(db, c, rows);
    forall k | 0 <= k < |rows|
      ensures Slot(db1, c, rows[k]).One?
      ensures IsLastFor(db1, c, rows, Slot(db1, c, rows[k]).index, k) ==>
        db1.asistencias[Slot(db1, c, rows[k]).index].estado == Presence(rows[k].estadoAsistencia)
    {
      var p := Slot(db1, c, rows[k]).index;
      LastFlagIsLastRow(db1, c, rows, p);
      FindSpec(db1.asistencias, KeyOf, AttendanceKey(FindStudent(db1, IdentityFor(rows[k], c)).index, rows[k].fechaAsistencia));
    }
  }
}

=== FILE: models.dfy ===
/** The three stored entities (Colegio, Estudiante, Asistencia), the database holding
    them, and the constraints the database enforces on every insert. Primary keys
    (`id_colegio`, `id_estudiante`, `id_asistencia`) are positions in the tables:
    they are handed out in insertion order and nothing in this core deletes a row. */
module Models {
  import opened Calendar
  import opened Collections

  /** The errors the ORM and the database raise in the modelled code. */
  datatype DbError =
    | ValidationError          // a value a DateField cannot hold
    | IntegrityError           // a foreign key or unique constraint violated
    | MultipleObjectsReturned  // `get()` matched more than one row

  datatype Result<T> = Ok(value: T) | Err(error: DbError)

  /** A school. The account it belongs to is not part of this model. */
  datatype Colegio = Colegio(
    nombre: string,
    codigoDane: string,
    ubicacion: string,
    numEstudiantes: int,
    numDocentes: int)

  /** A student. `colegio` is the position of its school; genero and grado are free text. */
  datatype Estudiante = Estudiante(
    colegio: nat,
    nombre: string,
    apellidos: string,
    fechaNacimiento: Date,
    genero: string,
    grado: string)

  /** One attendance mark: `estado` is true for present, false for absent. */
  datatype Asistencia = Asistencia(estudiante: nat, fecha: Date, estado: bool)

  datatype Db = Db(colegios: seq<Colegio>, estudiantes: seq<Estudiante>, asistencias: seq<Asistencia>)

  function CodigoDaneOf(c: Colegio): string {
    c.codigoDane
  }

  /** The tuple ingestion uses to recognise a student it has seen before. */
  datatype Identity = Identity(nombre: string, apellidos: string, fechaNacimiento: Date, colegio: nat)

  function IdentityOf(e: Estudiante): Identity {
    Identity(e.nombre, e.apellidos, e.fechaNacimiento, e.colegio)
  }

  /** The pair `unique_together` constrains on Asistencia. */
  datatype AttendanceKey = AttendanceKey(estudiante: nat, fecha: Date)

  function KeyOf(a: Asistencia): AttendanceKey {
    AttendanceKey(a.estudiante, a.fecha)
  }

  /** Every student points at one existing school and has a real birth date. */
  predicate StudentsReferenceSchools(db: Db) {
    forall i :: 0 <= i < |db.estudiantes| ==>
      db.estudiantes[i].colegio < |db.colegios| && ValidDate(db.estudiantes[i].fechaNacimiento)
  }

  /** Every attendance mark points at one existing student and has a real date. */
  predicate AttendanceReferencesStudents(db: Db) {
    forall i :: 0 <= i < |db.asistencias| ==>
      db.asistencias[i].estudiante < |db.estudiantes| && ValidDate(db.asistencias[i].fecha)
  }

  /** What every stored row satisfies: unique `codigo_dane`, foreign keys and one
      Asistencia per (estudiante, fecha), enforced by the database, and real dates,
      enforced by the DateField conversion before the row reaches the database. */
  predicate Consistent(db: Db) {
    && Unique(db.colegios, CodigoDaneOf)
    && StudentsReferenceSchools(db)
    && AttendanceReferencesStudents(db)
    && Unique(db.asistencias, KeyOf)
  }

  /** At most one student per identity tuple. Estudiante has no unique constraint, so
      only the lookups ingestion performs keep this true. */
  predicate NoDuplicateStudents(db: Db) {
    Unique(db.estudiantes, IdentityOf)
  }

  /** Inserting a school: the unique constraint on `codigo_dane` rejects a code in use.
      InsertColegioSpec states when it succeeds. */
  function InsertColegio(db: Db, col: Colegio): (r: Result<Db>)
    ensures r.Err? ==> r.error == IntegrityError
    ensures r.Ok? ==> r.value == db.(colegios := db.colegios + [col])
  {
    if Find(db.colegios, CodigoDaneOf, col.codigoDane).Absent? then
      Ok(db.(colegios := db.colegios + [col]))
    else
      Err(IntegrityError)
  }

  /** A school is stored exactly when no stored school has its code, and storing it
      keeps the database consistent. */
  lemma InsertColegioSpec(db: Db, col: Colegio)
    ensures InsertColegio(db, col).Ok? <==>
      forall i :: 0 <= i < |db.colegios| ==> db.colegios[i].codigoDane != col.codigoDane
    ensures InsertColegio(db, col).Ok? && Consistent(db) ==> Consistent(InsertColegio(db, col).value)
  {
    FindSpec(db.colegios, CodigoDaneOf, col.codigoDane);
    if InsertColegio(db, col).Ok? {
      UniqueAppend(db.colegios, col, CodigoDaneOf);
    }
  }

  /** Inserting a student: its birth date must be a date and its school must exist.
      Nothing stops a second student with the same identity. */
  function InsertEstudiante(db: Db, e: Estudiante): (r: Result<Db>)
    ensures r.Ok? <==> ValidDate(e.fechaNacimiento) && e.colegio < |db.colegios|
    ensures r.Err? ==> (r.error == ValidationError <==> !ValidDate(e.fechaNacimiento))
    ensures r.Err? && ValidDate(e.fechaNacimiento) ==> r.error == IntegrityError
    ensures r.Ok? ==> r.value == db.(estudiantes := db.estudiantes + [e])
  {
    if !ValidDate(e.fechaNacimiento) then Err(ValidationError)
    else if e.colegio >= |db.colegios| then Err(IntegrityError)
    else Ok(db.(estudiantes := db.estudiantes + [e]))
  }

  /** Storing a student keeps the database consistent. */
  lemma InsertEstudianteConsistent(db: Db, e: Estudiante)
    requires Consistent(db)
    ensures InsertEstudiante(db, e).Ok? ==> Consistent(InsertEstudiante(db, e).value)
  {
  }

  /** Inserting an attendance mark: its date must be a date, its student must exist and
      no mark may exist yet for the same (estudiante, fecha). InsertAsistenciaSpec states
      when it succeeds. */
  function InsertAsistencia(db: Db, a: Asistencia): (r: Result<Db>)
    ensures r.Err? ==> (r.error == ValidationError <==> !ValidDate(a.fecha))
    ensures r.Err? && ValidDate(a.fecha) ==> r.error == IntegrityError
    ensures r.Ok? ==> r.value == db.(asistencias := db.asistencias + [a])
  {
    if !ValidDate(a.fecha) then Err(ValidationError)
    else if a.estudiante >= |db.estudiantes| || !Find(db.asistencias, KeyOf, KeyOf(a)).Absent? then
      Err(IntegrityError)
    else
      Ok(db.(asistencias := db.asistencias + [a]))
  }

  /** A mark is stored exactly when its date is valid, its student exists and no mark
      has its (estudiante, fecha); storing it keeps the database consistent. */
  lemma InsertAsistenciaSpec(db: Db, a: Asistencia)
    ensures InsertAsistencia(db, a).Ok? <==>
      && ValidDate(a.fecha)
      && a.estudiante < |db.estudiantes|
      && forall i :: 0 <= i < |db.asistencias| ==> KeyOf(db.asistencias[i]) != KeyOf(a)
    ensures InsertAsistencia(db, a).Ok? && Consistent(db) ==> Consistent(InsertAsistencia(db, a).value)
  {
    FindSpec(db.asistencias, KeyOf, KeyOf(a));
    if InsertAsistencia(db, a).Ok? {
      UniqueAppend(db.asistencias, a, KeyOf);
    }
  }

  /** The `estado` column's default. */
  const DefaultEstado := true

  /** An Asistencia as the model class builds it: `estado` falls back to present when
      the caller gives none. */
  function NewAsistencia(estudiante: nat, fecha: Date, estado: Option<bool>): (a: Asistencia)
    ensures KeyOf(a) == AttendanceKey(estudiante, fecha)
    ensures !a.estado <==> estado == Some(false)
  {
    Asistencia(estudiante, fecha, if estado.Some? then estado.value else DefaultEstado)
  }
}

=== FILE: scenario.dfy ===
/** A worked upload: two rows for the same student on two days, one present and one
    absent, and the dashboard that follows from them. */
module Scenario {
  import opened Calendar
  import opened Text
  import opened Collections
  import opened Models
  import opened Grouping
  import opened Ingestion
  import opened Dashboard

  const School := Colegio("Colegio Uno", "ORG1", "Bogotá", 0, 0)
  const Birth := Date(2014, 3, 1)
  const First := Row("Ana", "Ruiz", Birth, "F", "5", Date(2024, 5, 1), "Presente")
  const Second := Row("Ana", "Ruiz", Birth, "F", "5", Date(2024, 5, 2), "Ausente")
  const Ana := Estudiante(0, "Ana", "Ruiz", Birth, "F", "5")

  lemma PresenteIsPresent()
    ensures Presence("Presente")
  {
    var s := "Presente";
    assert s[..0] == [] && s[8..] == [] && s[0..8] == s;
    StripUnique(s, 0, 8);
    LowerIsPresente(s);
  }

  /** Anything shorter than "presente" after stripping is an absence. */
  lemma AusenteIsAbsent()
    ensures !Presence("Ausente")
  {
    assert |Lower(Strip("Ausente"))| <= 7;
  }

  const Db0 := Db([School], [], [])
  const Db1 := Db([School], [Ana], [Asistencia(0, Date(2024, 5, 1), true)])
  const Db2 := Db([School], [Ana], [Asistencia(0, Date(2024, 5, 1), true), Asistencia(0, Date(2024, 5, 2), false)])

  /** The first row creates Ana and her mark for 1 May. */
  lemma FirstRowCreates()
    ensures IngestRow(Db0, 0, First) == RowDone(Db1)
  {
    PresenteIsPresent();
    assert ValidDate(Birth) && ValidDate(Date(2024, 5, 1));
    assert NewStudent(First, 0) == Ana && Db0.estudiantes + [Ana] == [Ana];
    StudentCreateIfAbsent(Db0, 0, First);
    assert GetOrCreateStudent(Db0, 0, First) == Ok((Db0.(estudiantes := [Ana]), 0));
    assert FindAttendance(Db0.(estudiantes := [Ana]), AttendanceKey(0, Date(2024, 5, 1))) == Absent;
  }

  /** The second row reuses Ana and adds her absence on 2 May. */
  lemma SecondRowReuses()
    ensures IngestRow(Db1, 0, Second) == RowDone(Db2)
  {
    AusenteIsAbsent();
    assert ValidDate(Birth) && ValidDate(Date(2024, 5, 2));
    assert [Ana][..0] == [];
    assert IdentityOf(Ana) == IdentityFor(Second, 0);
    FindSpec(Db1.estudiantes, IdentityOf, IdentityFor(Second, 0));
    assert FindStudent(Db1, IdentityFor(Second, 0)) == One(0);
    assert GetOrCreateStudent(Db1, 0, Second) == Ok((Db1, 0));
    assert Db1.asistencias[..0] == [];
    assert FindAttendance(Db1, AttendanceKey(0, Date(2024, 5, 2))) == Absent;
    assert Db1.asistencias + [Asistencia(0, Date(2024, 5, 2), false)] == Db2.asistencias;
  }

  /** The upload yields one student and two marks, and counts both rows. */
  lemma UploadTwoDays()
    ensures Ingest(Db0, 0, [First, Second]) == Processed(Db2, 2)
  {
    FirstRowCreates();
    SecondRowReuses();
    assert [First][..0] == [];
    LastRowStep(Db0, 0, [First]);
    assert [First, Second][..1] == [First];
    LastRowStep(Db0, 0, [First, Second]);
  }

  const Absence := Asistencia(0, Date(2024, 5, 2), false)

  lemma OnlyAna()
    ensures SchoolStudents(Db2, 0) == [Ana]
  {
    assert Db2.estudiantes[..0] == [];
  }

  lemma OnlyAbsence()
    ensures Absences(Db2, 0, 2024) == [Absence]
  {
    var a := Db2.asistencias;
    assert a[..1] == [a[0]] && a[..1][..0] == [];
  }

  const Today := Date(2024, 10, 10)

  lemma GeneroAfterUpload()
    ensures Histogram(Generos(SchoolStudents(Db2, 0))) == [Bucket("F", 1)]
  {
    OnlyAna();
    assert Generos([Ana]) == ["F"];
    assert ["F"][..0] == [];
    assert Histogram(["F"]) == Add([], "F");
  }

  /** Born 1 March 2014, Ana is ten on 10 October 2024 and lands in "9-11 años". */
  lemma EdadAfterUpload()
    ensures AgeDistribution(Ages(SchoolStudents(Db2, 0), Today)) ==
      [Bucket("0-8 años", 0), Bucket("9-11 años", 1), Bucket("12-14 años", 0), Bucket("15-18 años", 0)]
  {
    OnlyAna();
    var ages := Ages([Ana], Today);
    assert ages == [10];
    AgeBinsIff(10);
    assert ages[..0] == [];
    var d := AgeDistribution(ages);
    assert |d| == 4;
  }

  lemma DesercionAfterUpload()
    ensures Trend(Absences(Db2, 0, 2024)) == [0, 0, 0, 0, 1, 0, 0, 0, 0, 0, 0, 0]
  {
    OnlyAbsence();
    assert [Absence][..0] == [];
    assert MonthTotals([Absence]) == map[5 := 1];
    var t := Trend([Absence]);
    forall i | 0 <= i < 12
      ensures t[i] == [0, 0, 0, 0, 1, 0, 0, 0, 0, 0, 0, 0][i]
    {
      assert t[i] == Get(map[5 := 1], i + 1);
    }
  }

  /** The dashboard after the upload: one student, gender F once, one student in the
      second age bin, and one absence in May. */
  lemma DashboardAfterUpload()
    ensures var s := Summarize(Db2, 0, Today);
      && s.totalEstudiantes == 1
      && s.genero == [Bucket("F", 1)]
      && s.edad == [Bucket("0-8 años", 0), Bucket("9-11 años", 1), Bucket("12-14 años", 0), Bucket("15-18 años", 0)]
      && s.desercion == [0, 0, 0, 0, 1, 0, 0, 0, 0, 0, 0, 0]
  {
    OnlyAna();
    GeneroAfterUpload();
    EdadAfterUpload();
    DesercionAfterUpload();
  }
}

=== FILE: text.dfy ===
/** The string handling behind the attendance flag: Python's `str.strip()` and
    `str.lower()`, and the comparison with "presente". */
module Text {

  /** The characters for which Python's `str.isspace()` holds; `strip()` with no
      argument removes exactly these from both ends. */
  predicate IsSpace(ch: char) {
    || '\t' <= ch <= '\r'
    || '\U{1C}' <= ch <= '\U{1F}'
    || ch == ' '
    || ch == '\U{85}'
    || ch == '\U{A0}'
    || ch == '\U{1680}'
    || '\U{2000}' <= ch <= '\U{200A}'
    || ch == '\U{2028}'
    || ch == '\U{2029}'
    || ch == '\U{202F}'
    || ch == '\U{205F}'
    || ch == '\U{3000}'
  }

  predicate AllSpace(s: string) {
    forall k :: 0 <= k < |s| ==> IsSpace(s[k])
  }

  /** s[i..j] is s with only whitespace cut from its two ends. */
  predicate Padded(s: string, i: int, j: int) {
    0 <= i <= j <= |s| && AllSpace(s[..i]) && AllSpace(s[j..])
  }

  /** Number of whitespace characters at the start of s. */
  function LeadingSpaces(s: string): (n: nat)
    ensures n <= |s| && AllSpace(s[..n])
    ensures n < |s| ==> !IsSpace(s[n])
  {
    if |s| == 0 || !IsSpace(s[0]) then 0
    else
      var n := 1 + LeadingSpaces(s[1..]);
      assert forall k :: 1 <= k < n ==> s[k] == s[1..][..n - 1][k - 1];
      n
  }

  /** Start of the run of whitespace that ends s. */
  function TrailingStart(s: string): (n: nat)
    ensures n <= |s| && AllSpace(s[n..])
    ensures 0 < n ==> !IsSpace(s[n - 1])
  {
    if |s| == 0 || !IsSpace(s[|s| - 1]) then |s|
    else
      var n := TrailingStart(s[..|s| - 1]);
      assert forall k :: n <= k < |s| - 1 ==> s[k] == s[..|s| - 1][n..][k - n];
      n
  }

  /** Python's `s.strip()`. */
  function Strip(s: string): (r: string)
    ensures |r| <= |s|
    ensures r == [] <==> AllSpace(s)
    ensures r != [] ==> !IsSpace(r[0]) && !IsSpace(r[|r| - 1])
  {
    var i := LeadingSpaces(s);
    if i == |s| then []
    else
      var j := TrailingStart(s);
      assert i < j;
      assert !AllSpace(s) by {
        assert !IsSpace(s[i]);
      }
      s[i..j]
  }

  /** Cutting whitespace off both ends of s until a non-space character shows on each
      side gives exactly what `strip()` returns. */
  lemma StripUnique(s: string, i: int, j: int)
    requires Padded(s, i, j) && i < j
    requires !IsSpace(s[i]) && !IsSpace(s[j - 1])
    ensures Strip(s) == s[i..j]
  {
    assert LeadingSpaces(s) == i;
    assert TrailingStart(s) == j;
  }

  /** Python's `str.lower()` restricted to the letters A to Z. Against the all-ASCII
      literal "presente" this decides equality exactly as the full Unicode mapping does. */
  function LowerChar(ch: char): char {
    if 'A' <= ch <= 'Z' then (ch as int + 32) as char else ch
  }

  function Lower(s: string): (r: string)
    ensures |r| == |s|
    ensures forall k :: 0 <= k < |s| ==> r[k] == LowerChar(s[k])
  {
    seq(|s|, k requires 0 <= k < |s| => LowerChar(s[k]))
  }

  const Presente := "presente"

  /** The attendance flag of a row: present exactly when the stripped, lower-cased
      `estado_asistencia` is "presente"; every other text means absent. */
  predicate Presence(estadoAsistencia: string) {
    Lower(Strip(estadoAsistencia)) == Presente
  }

  /** t spells "presente", each letter in either case. */
  predicate SpellsPresente(t: string) {
    |t| == |Presente| && forall k :: 0 <= k < |t| ==> t[k] == Presente[k] || t[k] == "PRESENTE"[k]
  }

  lemma LowerIsPresente(t: string)
    ensures Lower(t) == Presente <==> SpellsPresente(t)
  {
    if SpellsPresente(t) {
      assert forall k :: 0 <= k < |t| ==> Lower(t)[k] == Presente[k];
    }
    if Lower(t) == Presente {
      assert forall k :: 0 <= k < |t| ==> LowerChar(t[k]) == Presente[k];
    }
  }

  /** A row counts as present exactly when its status text is "presente", in any mix of
      upper and lower case, surrounded by nothing but whitespace. */
  lemma PresenceIff(s: string)
    ensures Presence(s) <==> exists i, j :: Padded(s, i, j) && SpellsPresente(s[i..j])
  {
    if Presence(s) {
      var i := LeadingSpaces(s);
      LowerIsPresente(Strip(s));
      assert i < |s|;
      var j := TrailingStart(s);
      assert Strip(s) == s[i..j];
      assert Padded(s, i, j) && SpellsPresente(s[i..j]);
    }
    if exists i, j :: Padded(s, i, j) && SpellsPresente(s[i..j]) {
      var i, j :| Padded(s, i, j) && SpellsPresente(s[i..j]);
      assert s[i..j][0] == s[i];
      assert s[i..j][|Presente| - 1] == s[j - 1];
      StripUnique(s, i, j);
      LowerIsPresente(s[i..j]);
    }
  }
}
